=== FILE: README.md ===
# Spatial hash grid and chunked cell rendering, modelled in Dafny

This project models two parts of a PixiJS graph-rendering engine.

1. **The spatial hash grid** (`SpatialHashGrid`). It divides the world into square cells of
   `cellSize` units and keeps, per cell, the set of ids of the entities indexed there:
   - a point (node) goes into the cell that contains it;
   - an edge goes either into the cells its segment passes through, found by a DDA grid
     traversal, or into every cell of its bounding box.

   Range and point queries return the union of the id sets of the cells they cover.
2. **The chunk cache of a cell graphics layer** (`CellGraphicsLayer<T>`). Items are indexed
   into every cell of their bounding box, and each indexed cell is marked dirty. A redraw
   re-renders the graphics batch of each dirty cell, or of every cell when forced, from
   that cell's items. Culling shows only the batches within one cell of the view.

Both classes are modelled as Dafny classes whose methods update their fields in place.
Each method is proved against a value-level specification function:
- `GridSpec.Insert`, `Erase`, `Strip`, `Relocate` and `IdsIn` for the grid;
- `ChunkSpec.Append`, `Rebuild`, `Cull` and `Blank` for the cache.

The lemmas beside those functions state what each operation means: which cells hold which
ids afterwards, what a redraw leaves in each batch, and how operations compose.

Modelling choices:
- Cells are keyed by the integer pair `(cx, cy)` rather than by the string `"cx,cy"`. The
  string is only an encoding of the pair.
- World coordinates are integers. Cell sizes are positive integers.
- `Math.floor(v / size)` is Dafny's Euclidean `v / size`. The two agree for a positive
  divisor.
- The traversal's parametric distances are exact reals. `Infinity` is its own case of the
  datatype `Dda.Param`, and `Less` and `Plus` give it the meaning `<` and `+` have on it.
- A graphics batch is modelled by the commands recorded since its last `clear()` plus its
  `visible` flag:
  - the commands are a `Setup` for the line style, then one `Draw(item)` per rendered item;
  - a newly created batch is visible;
  - a reused batch keeps its flag.
- The camera's view bounds are an `Option<Rect>`. `None` stands for a layer with no engine
  attached.

## Model

| member | source | states |
|---|---|---|
| Cells.FloorDivBounds | src/core/SpatialHashGrid.ts:13-17 | a coordinate lies in the cell [q·size, q·size + size) of its floor q |
| Cells.FloorDivUnique | src/core/SpatialHashGrid.ts:13-17 | the floor is the only cell index whose cell holds the coordinate |
| Cells.FloorDivMonotone | src/core/SpatialHashGrid.ts:53-56 | flooring keeps the order of coordinates, so the min/max corners of a box give its lowest/highest cells |
| Cells.VisitedNone | src/core/SpatialHashGrid.ts:58-59 | before the nested loops start, no cell of the box has been visited |
| Cells.VisitedNext | src/core/SpatialHashGrid.ts:59-65 | one inner iteration at (ix, iy), inside the box, adds exactly that cell to the cells visited so far |
| Cells.VisitedColumnDone | src/core/SpatialHashGrid.ts:58-59 | when the inner loop exits, the visited cells are those before the bottom of the next column |
| Cells.VisitedAll | src/core/SpatialHashGrid.ts:58-66 | when the outer loop exits, the nested loops have visited exactly the cells of the inclusive rectangle startX..endX by startY..endY |
| Cells.RectCoversPoints | src/core/SpatialHashGrid.ts:187-192 | the cell of every point of the rectangle [x, x+width] × [y, y+height] is among the cells the range query visits |
| Cells.BoundingSpanIsHull | src/core/SpatialHashGrid.ts:47-56 | the cells of the bounding box of two points are the cells between the two points' own cells |
| Dda.SetupAimed | src/core/SpatialHashGrid.ts:75-98 | the initial walker sits in the cell of the first endpoint, the end cell is the cell of the second, and the unit steps point from the one towards the other |
| Dda.StepTowardsEnd | src/core/SpatialHashGrid.ts:100-107 | away from the end cell, one corrected iteration moves one unit along one axis towards the end and stays between start and end |
| Dda.AdvanceTowardsEnd | src/core/SpatialHashGrid.ts:100-107 | after n iterations of the corrected walk (n within the distance), the walker is exactly n unit steps closer to the end cell and still between start and end |
| Dda.ReachesEnd | src/core/SpatialHashGrid.ts:100-117 | the corrected walk reaches the end cell after exactly abs(endCx−cx)+abs(endCy−cy) iterations, and not earlier |
| Dda.PathIndex | src/core/SpatialHashGrid.ts:100-109 | entry i of the corrected walk's visited-cell sequence is the walker's cell after i iterations |
| Dda.PathShape | src/core/SpatialHashGrid.ts:100-109 | the cells the corrected walk visits start at the first endpoint's cell, consecutive cells are 4-neighbours in the step directions, no cell repeats, and all lie between the two endpoints' cells |
| Dda.PathDistinct | src/core/SpatialHashGrid.ts:100-109 | the corrected walk never revisits a cell, since each iteration brings it one unit closer to the end cell |
| Dda.DistinctElems | src/core/SpatialHashGrid.ts:109 | a sequence of cells without repeats adds as many cells to the set as it has entries |
| Dda.PathSize | src/core/SpatialHashGrid.ts:109-111 | after n iterations of the corrected walk within the distance, the set holds n + 1 cells, which is what the cap at line 111 counts |
| Dda.PathGrows | src/core/SpatialHashGrid.ts:100-109 | one iteration of the corrected walk adds the walker's new cell to the set |
| Dda.WalkStep | src/core/SpatialHashGrid.ts:100-115 | short of the end, an iteration takes one corrected step, gets one cell closer, and the set gains exactly one new cell |
| Dda.TraversalFacts | src/core/SpatialHashGrid.ts:72-118 | the corrected traversal `Dda.Traversal`, which `LineCells` returns, holds the start cell; only that cell when both endpoints share a cell; min(distance, 10000) + 1 cells, so at most 10001; the end cell exactly when the distance is at most 10000; only cells of the segment's bounding box |
| Dda.TraversalOneCell | src/core/SpatialHashGrid.ts:80-84 | a segment inside one cell yields exactly that cell |
| Dda.CornerOvershoot | src/core/SpatialHashGrid.ts:100-107 | as written, the segment (50,−50)–(100,−100) with cell size 100 steps from (0,−1) into (0,−2) instead of (1,−1), and never reaches the end cell |
| Dda.AsWrittenBelowRow | src/core/SpatialHashGrid.ts:100-107 | in that example every cell after the first iteration lies at or below row −2 |
| Dda.CornerOvershootCells | src/core/SpatialHashGrid.ts:72-118 | in that example getLineCells as written returns 10001 cells, none of them the end cell |
| Dda.NeverAtEnd | src/core/SpatialHashGrid.ts:100-114 | a walk that never reaches the end cell runs until the cap fires, with 10001 cells and without the end cell |
| Dda.CornerLeavesBox | src/core/SpatialHashGrid.ts:100-114 | in that example the source's result holds (0,−2), a cell outside the segment's bounding box |
| Dda.CornerCells | src/core/SpatialHashGrid.ts:72-118 | in that example the corrected walk returns just the start and end cells |
| Dda.StopAsWritten | src/core/SpatialHashGrid.ts:100-114 | the source's loop stops at the first iteration in the end cell, or at the cap, whichever comes first, and not before |
| Dda.StepAsWrittenUnit | src/core/SpatialHashGrid.ts:101-107 | an iteration as written changes exactly one of cx and cy, by stepX or stepY, and so makes one unit of progress along the step directions |
| Dda.AsWrittenProgress | src/core/SpatialHashGrid.ts:100-107 | after n iterations as written the walker has made exactly n units of progress |
| Dda.PathAsWrittenIndex | src/core/SpatialHashGrid.ts:100-109 | entry i of the as-written visited sequence is the walker's cell after i iterations |
| Dda.AsWrittenPathShape | src/core/SpatialHashGrid.ts:100-111 | as written, on every input: the visited cells start at the start cell, consecutive cells are 4-neighbours in the step directions, no cell repeats, so after n iterations the set holds n + 1 cells |
| Dda.TraversalAsWrittenFacts | src/core/SpatialHashGrid.ts:72-118 | getLineCells as written returns the start cell and at most 10001 cells, and exactly 10001 whenever the end cell is missing |
| Dda.StepAgrees | src/core/SpatialHashGrid.ts:101-107 | away from the end cell, the source's step and the corrected one differ only when the source steps an axis already at the end cell's coordinate |
| Dda.LeavingGoesBeyond | src/core/SpatialHashGrid.ts:101-107 | such a step takes the walker past the end cell along that axis |
| Dda.BeyondStays | src/core/SpatialHashGrid.ts:100-107 | once past the end cell, the walk as written stays past it and never reaches it |
| Dda.AgreePrefix | src/core/SpatialHashGrid.ts:100-107 | up to the first arrival of the as-written walk in the end cell, each iteration agrees with the corrected one |
| Dda.AsWrittenAgrees | src/core/SpatialHashGrid.ts:100-107 | when the as-written walk reaches the end cell, it does so after exactly the distance, along the corrected walk |
| Dda.PathsAgree | src/core/SpatialHashGrid.ts:100-109 | agreeing walkers collect the same cells |
| Dda.TraversalAgrees | src/core/SpatialHashGrid.ts:72-118 | whenever getLineCells as written returns the end cell, it returns exactly the corrected traversal |
| Dda.CornerTouch | src/core/SpatialHashGrid.ts:70-118 | the diagonal (50,50)–(150,150) through a cell corner yields cell (0,1) in both walks, although no point of the segment lies in that cell |
| GridSpec.InsertNone | src/core/SpatialHashGrid.ts:39-44 | adding an id to no cells changes nothing |
| GridSpec.InsertOneMore | src/core/SpatialHashGrid.ts:39-44 | adding to one more cell is one more create-if-missing-then-add step |
| GridSpec.InsertSingle | src/core/SpatialHashGrid.ts:19-25 | adding to the single cell of a point is the create-if-missing-then-add step |
| GridSpec.SumSizesTake | src/core/SpatialHashGrid.ts:168-174 | the total of the cell sizes does not depend on the order in which the cells are visited |
| GridSpec.InsertEffect | src/core/SpatialHashGrid.ts:58-66 | after indexing, the id is in every target cell, no other id appears or disappears, and cells outside the targets keep their entry or lack of one |
| GridSpec.StripEffect | src/core/SpatialHashGrid.ts:120-124 | after remove no cell holds the id, every cell keeps its entry (even when it is now empty), and other ids stay where they were |
| GridSpec.EraseEffect | src/core/SpatialHashGrid.ts:126-135 | removeFromCell takes the id out of that cell only, drops the entry exactly when the cell empties, and changes nothing when the cell has no entry |
| GridSpec.RelocateEffect | src/core/SpatialHashGrid.ts:137-157 | moving between different cells leaves the id in the new cell and not in the old one, drops the old entry exactly when it empties, and touches no other cell |
| GridSpec.IdsInMembers | src/core/SpatialHashGrid.ts:194-202 | an id is in the union over a set of cells exactly when some cell of the set holds it |
| GridSpec.IdsInOneMore | src/core/SpatialHashGrid.ts:196-200 | visiting one more cell adds that cell's ids to the result |
| GridSpec.AddedNodeIsFound | src/core/SpatialHashGrid.ts:19-25 | a node added at (x, y) is found by queryPoint(x, y) and by every queryRange whose rectangle contains (x, y) |
| GridSpec.AddedThenRemovedIsGone | src/core/SpatialHashGrid.ts:126-135 | a node held by no cell, added at (x, y) and then removed from the cell of (x, y), is found by no point or range query |
| SpatialHash.SpatialHashGrid.constructor | src/core/SpatialHashGrid.ts:9-11 | a new grid has the given cell size and no cells |
| SpatialHash.SpatialHashGrid.Put | src/core/SpatialHashGrid.ts:21-24 | the id joins the cell's set, and the set is created first when the cell has none |
| SpatialHash.SpatialHashGrid.AddNode | src/core/SpatialHashGrid.ts:19-25 | the grid gains the id in the point's cell and nowhere else |
| SpatialHash.SpatialHashGrid.AddEdge | src/core/SpatialHashGrid.ts:31-45 | a precise edge is added to exactly the cells of its traversal (with the corrected tie step), which are the cells the source collects whenever the source's walk reaches the end cell; otherwise to every cell of its bounding box |
| SpatialHash.SpatialHashGrid.AddEdgeAABB | src/core/SpatialHashGrid.ts:47-67 | the id is added to every cell of the bounding box of the two endpoints, and nowhere else |
| SpatialHash.SpatialHashGrid.AddColumn | src/core/SpatialHashGrid.ts:59-65 | the inner loop adds the id to the cells of one column of the box, bottom to top |
| SpatialHash.SpatialHashGrid.LineCells | src/core/SpatialHashGrid.ts:72-118 | returns exactly the traversal's cell set, whose contents Dda.TraversalFacts states (with the corrected tie step) |
| SpatialHash.SpatialHashGrid.Walk | src/core/SpatialHashGrid.ts:100-115 | the stepping loop collects the cells of the first min(distance, 10000) iterations, with the corrected tie step |
| SpatialHash.SpatialHashGrid.Remove | src/core/SpatialHashGrid.ts:120-124 | the id leaves every cell and all entries stay |
| SpatialHash.SpatialHashGrid.RemoveFromCell | src/core/SpatialHashGrid.ts:126-135 | the id leaves the point's cell, whose entry goes when it empties; an absent cell means no change |
| SpatialHash.SpatialHashGrid.UpdateNode | src/core/SpatialHashGrid.ts:137-157 | a move within one cell changes nothing; otherwise the id leaves the old cell (dropping it when emptied) and joins the new one |
| SpatialHash.SpatialHashGrid.Clear | src/core/SpatialHashGrid.ts:159-161 | no cells remain |
| SpatialHash.SpatialHashGrid.GetStats | src/core/SpatialHashGrid.ts:163-185 | the cell count, the total of the cell sizes, the largest cell size (an upper bound attained by some cell, 0 when there are none), the mean cell size, and the cell size; nothing changes |
| SpatialHash.SpatialHashGrid.Tally | src/core/SpatialHashGrid.ts:164-174 | the loop of getStats sums the cell sizes and finds a cell of maximal size |
| SpatialHash.SpatialHashGrid.QueryRange | src/core/SpatialHashGrid.ts:187-204 | returns exactly the ids held by some cell overlapping the rectangle |
| SpatialHash.SpatialHashGrid.QueryPoint | src/core/SpatialHashGrid.ts:206-209 | returns the point's cell's ids, or none when the cell has no entry; this equals the range query of the degenerate rectangle at the point |
| ChunkSpec.Draws | src/layers/CellGraphicsLayer.ts:105-107 | one draw command per item, in the items' order |
| ChunkSpec.AppendNone | src/layers/CellGraphicsLayer.ts:28-37 | indexing into no cells changes nothing |
| ChunkSpec.AppendOneMore | src/layers/CellGraphicsLayer.ts:31-34 | indexing into one more cell is one more create-if-missing-then-push step |
| ChunkSpec.AppendEffect | src/layers/CellGraphicsLayer.ts:22-38 | each covered cell's list becomes its old list with the item at the end; other cells keep their entry or lack of one |
| ChunkSpec.RebuildNone | src/layers/CellGraphicsLayer.ts:69-92 | redrawing no cells changes no batch |
| ChunkSpec.RebuildOneMore | src/layers/CellGraphicsLayer.ts:71-89 | redrawing one more cell is one more single-cell redraw, so the visiting order does not matter |
| ChunkSpec.ForcedRedrawReflectsData | src/layers/CellGraphicsLayer.ts:70-74 | a forced redraw gives every cell with data a batch holding the setup and one draw per item in order, keeps the other batches, and drops none |
| ChunkSpec.MarkAllThenRedraw | src/layers/CellGraphicsLayer.ts:47-92 | markAllDirty then a plain redraw equals the forced redraw, except that the batches of dirty cells without data are also dropped |
| ChunkSpec.IndexThenRedraw | src/layers/CellGraphicsLayer.ts:22-92 | after indexing an item and a plain redraw, every covered cell's batch draws its old items and then that item, which comes last |
| ChunkSpec.BlankThenForcedRedraw | src/layers/CellGraphicsLayer.ts:134-136 | clearAllGraphics followed by a forced redraw restores every cell with data as the redraw alone would; cells without data stay cleared |
| ChunkSpec.CullEffect | src/layers/CellGraphicsLayer.ts:114-132 | culling keeps the batches and their contents, shows exactly those within the widened view span, and is idempotent |
| ChunkSpec.ViewPointsShown | src/layers/CellGraphicsLayer.ts:119-131 | the batch of a cell containing any point of the view is shown |
| ChunkSpec.AppendKeepsFresh | src/layers/CellGraphicsLayer.ts:22-38 | indexing keeps the cache invariant (every clean cell with data has a batch rendered from that data), since it marks every cell it changes dirty |
| ChunkSpec.MarkKeepsFresh | src/layers/CellGraphicsLayer.ts:40-45 | marking cells dirty keeps the cache invariant |
| ChunkSpec.MarkAllFresh | src/layers/CellGraphicsLayer.ts:47-51 | after markAllDirty the cache invariant holds whatever the batches hold |
| ChunkSpec.CullKeepsFresh | src/layers/CellGraphicsLayer.ts:114-132 | culling keeps the cache invariant |
| ChunkSpec.RebuildFresh | src/layers/CellGraphicsLayer.ts:75-89 | a plain redraw from a state with the invariant leaves every cell with data with a batch holding exactly the rendering of its items, and no cell dirty |
| ChunkSpec.ForcedRebuildFresh | src/layers/CellGraphicsLayer.ts:70-74 | a forced redraw establishes the cache invariant from any state |
| ChunkSpec.BlankBreaksFresh | src/layers/CellGraphicsLayer.ts:134-136 | clearAllGraphics breaks the cache invariant: a clean rendered cell loses its commands, and the next plain redraw leaves it blank |
| ChunkCache.CellGraphicsLayer.constructor | src/layers/CellGraphicsLayer.ts:15-18 | a new layer has the given cell size, no batches, no data and no dirty cells, so the cache invariant holds |
| ChunkCache.CellGraphicsLayer.IndexElement | src/layers/CellGraphicsLayer.ts:22-38 | the item is appended to the list of every cell of the endpoints' bounding box, those cells become dirty, no batch changes, and the cache invariant is kept |
| ChunkCache.CellGraphicsLayer.IndexColumn | src/layers/CellGraphicsLayer.ts:29-36 | the inner loop indexes one column of the box, bottom to top |
| ChunkCache.CellGraphicsLayer.Push | src/layers/CellGraphicsLayer.ts:30-35 | the item is appended to the cell's list, created when missing, and the cell becomes dirty |
| ChunkCache.CellGraphicsLayer.MarkCellDirty | src/layers/CellGraphicsLayer.ts:40-45 | the point's cell becomes dirty, nothing else changes, and the cache invariant is kept |
| ChunkCache.CellGraphicsLayer.MarkAllDirty | src/layers/CellGraphicsLayer.ts:47-51 | every cell with data becomes dirty, nothing else changes, and the cache invariant holds afterwards |
| ChunkCache.CellGraphicsLayer.ClearIndexing | src/layers/CellGraphicsLayer.ts:53-64 | no batches, no data and no dirty cells remain, so the cache invariant holds |
| ChunkCache.CellGraphicsLayer.Redraw | src/layers/CellGraphicsLayer.ts:69-92 | forced: every cell with data is re-rendered; otherwise every dirty cell with data is re-rendered and every dirty cell without data loses its batch; afterwards no cell is dirty and the data is unchanged; a forced redraw establishes the cache invariant and a plain one keeps it |
| ChunkCache.CellGraphicsLayer.RedrawCells | src/layers/CellGraphicsLayer.ts:71-89 | visiting the cells of a set in any order redraws exactly those cells |
| ChunkCache.CellGraphicsLayer.RenderCell | src/layers/CellGraphicsLayer.ts:94-108 | the cell's batch, created visible when missing, now holds the setup and one draw per item, and keeps its flag |
| ChunkCache.CellGraphicsLayer.Paint | src/layers/CellGraphicsLayer.ts:102-107 | clearing, preparing and drawing leaves the setup command first and then item i's draw at position i + 1, with the flag untouched |
| ChunkCache.CellGraphicsLayer.Update | src/layers/CellGraphicsLayer.ts:114-132 | with no engine nothing changes; otherwise every batch is shown exactly when its cell lies within one cell of the cells the view overlaps; the cache invariant is kept |
| ChunkCache.CellGraphicsLayer.ClearAllGraphics | src/layers/CellGraphicsLayer.ts:134-136 | every batch loses its commands and keeps its flag; the data and dirty cells are unchanged (so the cache invariant is not kept, see ChunkSpec.BlankBreaksFresh) |
| ChunkCache.CellGraphicsLayer.Destroy | src/layers/CellGraphicsLayer.ts:138-149 | no batches, no data and no dirty cells remain, so the cache invariant holds |

## Left out

- Fractional coordinates. World coordinates and view bounds are integers, and IEEE-754 rounding in the traversal's divisions and sums is not modelled, since parametric distances are exact reals.
- Default arguments: `precise = true` in `addEdge` (src/core/SpatialHashGrid.ts:31) and `force = false` in `redraw` (src/layers/CellGraphicsLayer.ts:69). Dafny has no default parameters, so callers pass both explicitly.
- Zero, negative or non-numeric cell sizes. The cell size is a positive integer, and the default sizes (256 and 1024) are not modelled.
- The string form of cell keys, and parsing them back in `update`. Keys are integer pairs.
- Iteration order of `Map` and `Set`. Every loop over a map or set picks an arbitrary next element, and each result is proved independent of the order.
- `console.warn` when the traversal hits its cap.
- The `toFixed(2)` string formatting in `getStats`. The mean is an exact real.
- The aliasing in `queryPoint`: the source returns the grid's own live set for the cell, while the model returns its value.
- The PIXI side effects of `CellGraphicsLayer`:
  - adding batches to the layer's container and removing them from it;
  - `destroy()` on each graphics object;
  - emptying the item arrays before the map is cleared;
  - `super.destroy()`.

  Batches are values in a map, so a graphics object's identity is not modelled.
- What `renderElement` draws for an item. It is abstract in the source and is recorded here as one `Draw(item)` command. `prepareGraphics` is recorded as one `Setup` command, and its style constants are not modelled.
- The `visibleIds` argument of `update`. The source ignores it.
- SpatialHash.SpatialHashGrid.LineCells: uses the corrected tie rule of `Dda.Step` rather than the source's, as listed under Findings. `Dda.TraversalAsWritten` keeps the source's rule. By `Dda.TraversalAgrees` the two results are equal whenever the source's result holds the end cell. Otherwise the source returns 10001 cells without it (`Dda.TraversalAsWrittenFacts`).
- SpatialHash.SpatialHashGrid.Walk: steps with the corrected tie rule of `Dda.Step`, not the source's, so it inherits the difference described for LineCells. It also tests the cap in the loop guard rather than breaking at the end of the body; both exit after the same iteration.
- SpatialHash.SpatialHashGrid.AddEdge: the precise branch indexes the edge into the corrected traversal. On a segment where the source's walk misses the end cell (the Findings input), the source indexes the edge into 10001 cells and the model into the cells of the segment. Where the source's walk reaches the end cell, the contract states that the model indexes exactly the source's cells (`Dda.TraversalAsWritten`).
- Dda.TraversalFacts: does not state that the segment meets every returned cell, which the comment at src/core/SpatialHashGrid.ts:70 calls exact cell intersections. With half-open cells this is false for both walks: `Dda.CornerTouch` shows a segment through a cell corner collecting a cell it only touches at that corner. With closed cells it would need an invariant tying tMaxX and tMaxY to the segment's parameters at the next boundaries, which is not proved. Only the bounding-box containment is proved, and only for the corrected walk: with the source's tie rule the result can leave the bounding box, miss the end cell and hold 10001 cells (`Dda.CornerLeavesBox`, `Dda.CornerOvershootCells`).
- AetherLayer, AetherEngine, the camera and the other layers are not part of this model.

## Findings

| source | as written | input that shows it | evidently intended | confidence | as-written member | corrected member |
|---|---|---|---|---|---|---|
| src/core/SpatialHashGrid.ts:100-107 | When `tMaxX == tMaxY`, the else branch steps in y even if the walk is already in the end cell's row. From there the walk can never return to that row (`Dda.BeyondStays`), and no cell repeats (`Dda.AsWrittenPathShape`), so it runs on until the 10000-cell cap. | segment (50, −50)–(100, −100), cell size 100: start cell (0, −1), end cell (1, −1), tMaxX = tMaxY = 1. The walk enters (0, −2), never reaches (1, −1), and returns 10001 cells. | Never step an axis whose coordinate already equals the end cell's. The walk then reaches the end cell in abs(Δcx) + abs(Δcy) steps, inside the bounding box, and returns the two cells of the segment. | not executed | Dda.CornerOvershootCells | Dda.ReachesEnd |

=== FILE: cache_spec.dfy ===
/**
 * The abstract state of the chunked render cache of a cell graphics layer and the
 * value-level effect of each of its operations. A layer keeps, per cell, the list of
 * items indexed into it, the set of cells that need redrawing, and a graphics batch
 * per rendered cell. A batch is modelled by what it holds: the drawing commands issued
 * since it was last cleared, and its visibility flag.
 */
module ChunkSpec {
  import opened Cells

  datatype Option<V> = None | Some(value: V)

  /** A drawing command recorded in a batch: the line-style setup, or the drawing of one item. */
  datatype Op<T> = Setup | Draw(item: T)

  /** A graphics batch: its recorded commands and whether it is shown. */
  datatype Batch<T> = Batch(content: seq<Op<T>>, visible: bool)

  /** A world-space rectangle: the camera's view bounds. */
  datatype Rect = Rect(x: int, y: int, width: int, height: int)

  /** The layer's `cellData` map. */
  type Data<T> = map<Cell, seq<T>>

  /** The layer's `cells` map: the batch of each rendered cell. */
  type Batches<T> = map<Cell, Batch<T>>

  /** One draw command per item, in the items' order. */
  function Draws<T>(items: seq<T>): (r: seq<Op<T>>)
    ensures |r| == |items|
    ensures forall i :: 0 <= i < |items| ==> r[i] == Draw(items[i])
  {
    if items == [] then [] else Draws(items[..|items| - 1]) + [Draw(items[|items| - 1])]
  }

  /** What a batch holds after renderCell: the setup command, then one draw per item. */
  function Rendered<T>(items: seq<T>): seq<Op<T>>
  {
    [Setup] + Draws(items)
  }

  /** The batch renderCell leaves for cell k: a reused batch keeps its flag, a new one is shown. */
  function Render<T>(bs: Batches<T>, k: Cell, items: seq<T>): Batch<T>
  {
    Batch(Rendered(items), if k in bs then bs[k].visible else true)
  }

  /** The items indexed into cell k; a cell without an entry has none. */
  function DataAt<T>(d: Data<T>, k: Cell): seq<T>
  {
    if k in d then d[k] else []
  }

  /** Append item to the list of every cell of cs, creating the lists that are missing. */
  function Append<T>(d: Data<T>, cs: set<Cell>, item: T): Data<T>
  {
    map k | k in d.Keys + cs :: DataAt(d, k) + (if k in cs then [item] else [])
  }

  /** Append item to the list of the single cell k. */
  function AppendOne<T>(d: Data<T>, k: Cell, item: T): Data<T>
  {
    d[k := DataAt(d, k) + [item]]
  }

  /**
   * Redraw the cells of ks: a cell with data gets its batch rendered from that data,
   * a cell without data loses its batch; every other batch stays.
   */
  function Rebuild<T>(bs: Batches<T>, d: Data<T>, ks: set<Cell>): Batches<T>
  {
    map k | k in (bs.Keys - (ks - d.Keys)) + (ks * d.Keys) ::
      if k in ks && k in d then Render(bs, k, d[k]) else bs[k]
  }

  /** Redraw the single cell k. */
  function RebuildOne<T>(bs: Batches<T>, d: Data<T>, k: Cell): Batches<T>
  {
    if k in d then bs[k := Render(bs, k, d[k])] else bs - {k}
  }

  /** A span grown by one cell on every side. */
  function Widen(sp: Span): Span
  {
    Span((sp.lo.0 - 1, sp.lo.1 - 1), (sp.hi.0 + 1, sp.hi.1 + 1))
  }

  /** The cells update shows for a view: those overlapping it, plus a margin of one cell. */
  function ViewSpan(view: Rect, size: CellSize): Span
  {
    Widen(RectSpan(view.x, view.y, view.width, view.height, size))
  }

  /** Show exactly the batches whose cell lies in sp; contents stay. */
  function Cull<T>(bs: Batches<T>, sp: Span): Batches<T>
  {
    map k | k in bs :: bs[k].(visible := InSpan(k, sp))
  }

  /** Clear every batch's commands; the batches and their flags stay. */
  function Blank<T>(bs: Batches<T>): Batches<T>
  {
    map k | k in bs :: bs[k].(content := [])
  }

  lemma AppendNone<T>(d: Data<T>, item: T)
    ensures Append(d, {}, item) == d
  {
    var r := Append(d, {}, item);
    assert r.Keys == d.Keys;
    forall k | k in d
      ensures r[k] == d[k]
    {
    }
  }

  /** Appending into one more cell, not yet appended to, is one more single-cell append. */
  lemma AppendOneMore<T>(d: Data<T>, cs: set<Cell>, k: Cell, item: T)
    requires k !in cs
    ensures Append(d, cs + {k}, item) == AppendOne(Append(d, cs, item), k, item)
  {
    var a, b := Append(d, cs + {k}, item), AppendOne(Append(d, cs, item), k, item);
    assert a.Keys == b.Keys;
    forall c | c in a.Keys
      ensures a[c] == b[c]
    {
    }
  }

  /**
   * Indexing: every cell of cs gets an entry whose list is its old list with item at the
   * end; every other cell keeps its entry, or its lack of one.
   */
  lemma AppendEffect<T>(d: Data<T>, cs: set<Cell>, item: T)
    ensures forall k :: k in cs ==> k in Append(d, cs, item) && Append(d, cs, item)[k] == DataAt(d, k) + [item]
    ensures forall k :: k !in cs ==> (k in Append(d, cs, item) <==> k in d) && DataAt(Append(d, cs, item), k) == DataAt(d, k)
  {
  }

  lemma RebuildNone<T>(bs: Batches<T>, d: Data<T>)
    ensures Rebuild(bs, d, {}) == bs
  {
    var r := Rebuild(bs, d, {});
    assert r.Keys == bs.Keys;
    forall k | k in bs
      ensures r[k] == bs[k]
    {
    }
  }

  /**
   * Redrawing one more cell is one more single-cell redraw: the cells of a redraw are
   * independent, so the order in which the source visits them does not matter.
   */
  lemma RebuildOneMore<T>(bs: Batches<T>, d: Data<T>, ks: set<Cell>, k: Cell)
    requires k !in ks
    ensures Rebuild(bs, d, ks + {k}) == RebuildOne(Rebuild(bs, d, ks), d, k)
  {
    var a, b := Rebuild(bs, d, ks + {k}), RebuildOne(Rebuild(bs, d, ks), d, k);
    assert a.Keys == b.Keys;
    forall c | c in a.Keys
      ensures a[c] == b[c]
    {
      if c == k && k in d {
        assert k in Rebuild(bs, d, ks) <==> k in bs;
      }
    }
  }

  /**
   * The forced redraw: every cell with data has a batch holding the setup command and one
   * draw per item of that cell, in order; batches of cells without data stay as they were,
   * and no batch is dropped.
   */
  lemma ForcedRedrawReflectsData<T>(bs: Batches<T>, d: Data<T>)
    ensures Rebuild(bs, d, d.Keys).Keys == bs.Keys + d.Keys
    ensures forall k :: k in d ==> Rebuild(bs, d, d.Keys)[k].content == Rendered(d[k])
    ensures forall k :: k in bs && k !in d ==> Rebuild(bs, d, d.Keys)[k] == bs[k]
  {
  }

  /**
   * markAllDirty followed by a plain redraw renders what the forced redraw renders, and
   * in addition drops the batches of the dirty cells that have no data.
   */
  lemma MarkAllThenRedraw<T>(bs: Batches<T>, d: Data<T>, dirty: set<Cell>)
    ensures Rebuild(bs, d, dirty + d.Keys) == Rebuild(bs, d, d.Keys) - (dirty - d.Keys)
  {
    var a, b := Rebuild(bs, d, dirty + d.Keys), Rebuild(bs, d, d.Keys) - (dirty - d.Keys);
    assert a.Keys == b.Keys;
    forall c | c in a.Keys
      ensures a[c] == b[c]
    {
    }
  }

  /**
   * Indexing an item over the cells cs and then redrawing the dirty cells leaves, in every
   * cell of cs, a batch whose last command draws that item.
   */
  lemma IndexThenRedraw<T>(bs: Batches<T>, d: Data<T>, dirty: set<Cell>, cs: set<Cell>, item: T)
    ensures var r := Rebuild(bs, Append(d, cs, item), dirty + cs);
      forall k :: k in cs ==>
        (k in r && r[k].content == Rendered(DataAt(d, k) + [item]) && r[k].content[|r[k].content| - 1] == Draw(item))
  {
    var d' := Append(d, cs, item);
    var r := Rebuild(bs, d', dirty + cs);
    forall k | k in cs
      ensures k in r && r[k].content == Rendered(DataAt(d, k) + [item])
      ensures r[k].content[|r[k].content| - 1] == Draw(item)
    {
      AppendEffect(d, cs, item);
      var items := DataAt(d, k) + [item];
      assert r[k].content == [Setup] + Draws(items);
      assert Draws(items)[|items| - 1] == Draw(item);
    }
  }

  /**
   * clearAllGraphics followed by a forced redraw leaves every cell with data exactly as
   * the forced redraw alone would: only the flags matter to a redraw, and clearing keeps them.
   */
  lemma BlankThenForcedRedraw<T>(bs: Batches<T>, d: Data<T>)
    ensures forall k :: k in d ==> Rebuild(Blank(bs), d, d.Keys)[k] == Rebuild(bs, d, d.Keys)[k]
    ensures forall k :: k in bs && k !in d ==> Rebuild(Blank(bs), d, d.Keys)[k].content == []
  {
  }

  /**
   * Culling keeps the batches and their contents, shows exactly the batches of the cells in
   * sp, and culling again against the same span changes nothing.
   */
  lemma CullEffect<T>(bs: Batches<T>, sp: Span)
    ensures Cull(bs, sp).Keys == bs.Keys
    ensures forall k :: k in bs ==> Cull(bs, sp)[k].content == bs[k].content
    ensures forall k :: k in bs ==> (Cull(bs, sp)[k].visible <==> InSpan(k, sp))
    ensures Cull(Cull(bs, sp), sp) == Cull(bs, sp)
  {
  }

  /** The batch of a cell containing a point of the view is shown after culling to that view. */
  lemma ViewPointsShown<T>(bs: Batches<T>, view: Rect, size: CellSize, px: int, py: int)
    requires view.x <= px <= view.x + view.width && view.y <= py <= view.y + view.height
    requires CellOf(px, py, size) in bs
    ensures Cull(bs, ViewSpan(view, size))[CellOf(px, py, size)].visible
  {
    RectCoversPoints(view.x, view.y, view.width, view.height, size, px, py);
  }

  /**
   * The cache invariant: every cell that has data and is not dirty has a batch, and that
   * batch holds exactly the rendering of the cell's data. Dirty cells are the ones whose
   * batch may be stale or missing; a plain redraw relies on this to skip the other cells.
   */
  ghost predicate Fresh<T>(bs: Batches<T>, d: Data<T>, dirty: set<Cell>)
  {
    forall k :: k in d && k !in dirty ==> k in bs && bs[k].content == Rendered(d[k])
  }

  /** Indexing keeps the cache fresh: every cell whose data changes is marked dirty. */
  lemma AppendKeepsFresh<T>(bs: Batches<T>, d: Data<T>, dirty: set<Cell>, cs: set<Cell>, item: T)
    requires Fresh(bs, d, dirty)
    ensures Fresh(bs, Append(d, cs, item), dirty + cs)
  {
    forall k | k in Append(d, cs, item) && k !in dirty + cs
      ensures k in bs && bs[k].content == Rendered(Append(d, cs, item)[k])
    {
      AppendEffect(d, cs, item);
    }
  }

  /** Marking more cells dirty keeps the cache fresh. */
  lemma MarkKeepsFresh<T>(bs: Batches<T>, d: Data<T>, dirty: set<Cell>, more: set<Cell>)
    requires Fresh(bs, d, dirty)
    ensures Fresh(bs, d, dirty + more)
  {
  }

  /** With every cell that has data marked dirty, the cache is fresh whatever the batches hold. */
  lemma MarkAllFresh<T>(bs: Batches<T>, d: Data<T>, dirty: set<Cell>)
    ensures Fresh(bs, d, dirty + d.Keys)
  {
  }

  /** Culling only flips flags, so it keeps the cache fresh. */
  lemma CullKeepsFresh<T>(bs: Batches<T>, d: Data<T>, dirty: set<Cell>, sp: Span)
    requires Fresh(bs, d, dirty)
    ensures Fresh(Cull(bs, sp), d, dirty)
  {
  }

  /**
   * A plain redraw restores the cache: when it was fresh before, every cell with data has
   * a batch holding exactly the rendering of its data afterwards, with no cell dirty.
   */
  lemma RebuildFresh<T>(bs: Batches<T>, d: Data<T>, dirty: set<Cell>)
    requires Fresh(bs, d, dirty)
    ensures Fresh(Rebuild(bs, d, dirty), d, {})
  {
    var r := Rebuild(bs, d, dirty);
    forall k | k in d
      ensures k in r && r[k].content == Rendered(d[k])
    {
      if k in dirty {
        assert r[k] == Render(bs, k, d[k]);
      } else {
        assert k in bs && r[k] == bs[k];
      }
    }
  }

  /** A forced redraw makes the cache fresh from any state. */
  lemma ForcedRebuildFresh<T>(bs: Batches<T>, d: Data<T>)
    ensures Fresh(Rebuild(bs, d, d.Keys), d, {})
  {
    ForcedRedrawReflectsData(bs, d);
  }

  /**
   * clearAllGraphics does not keep the cache fresh: a cell rendered and clean loses its
   * commands but not its clean mark, so the next plain redraw leaves it blank.
   */
  lemma BlankBreaksFresh(item: int)
    ensures var bs := map[(0, 0) := Batch(Rendered([item]), true)];
      var d := map[(0, 0) := [item]];
      && Fresh(bs, d, {})
      && !Fresh(Blank(bs), d, {})
      && !Fresh(Rebuild(Blank(bs), d, {}), d, {})
  {
    var bs := map[(0, 0) := Batch(Rendered([item]), true)];
    var d := map[(0, 0) := [item]];
    assert Rendered([item])[0] == Setup;
    assert Blank(bs)[(0, 0)].content == [];
    RebuildNone(Blank(bs), d);
  }
}

=== FILE: cell_graphics_layer.dfy ===
/**
 * The chunked render cache of a cell graphics layer: items are indexed into the cells
 * their bounding box covers, cells are marked dirty, and a redraw re-renders each dirty
 * cell's batch from that cell's items. Culling shows only the batches near the view.
 */
module ChunkCache {
  import opened Cells
  import opened ChunkSpec

  class CellGraphicsLayer<T> {
    const cellSize: CellSize
    /** The batch of each rendered cell (the source's `cells`). */
    var batches: Batches<T>
    var cellData: Data<T>
    var dirtyCells: set<Cell>

    /** The cache invariant: every clean cell with data has a batch rendered from that data. */
    ghost predicate Consistent()
      reads this
    {
      Fresh(batches, cellData, dirtyCells)
    }

    constructor (cellSize: CellSize)
      ensures this.cellSize == cellSize
      ensures batches == map[] && cellData == map[] && dirtyCells == {}
      ensures Consistent()
    {
      this.cellSize := cellSize;
      batches := map[];
      cellData := map[];
      dirtyCells := {};
    }

    /**
     * Index item into every cell of the bounding box of the points (x1, y1) and (x2, y2):
     * append it to each cell's list and mark each cell dirty.
     */
    method IndexElement(item: T, x1: int, y1: int, x2: int, y2: int)
      modifies this
      ensures cellData == Append(old(cellData), SpanCells(BoundingSpan(x1, y1, x2, y2, cellSize)), item)
      ensures dirtyCells == old(dirtyCells) + SpanCells(BoundingSpan(x1, y1, x2, y2, cellSize))
      ensures batches == old(batches)
      ensures old(Consistent()) ==> Consistent()
    {
      var box := BoundingSpan(x1, y1, x2, y2, cellSize);
      VisitedNone(box);
      AppendNone(old(cellData), item);
      var ix := box.lo.0;
      while ix <= box.hi.0
        invariant ix >= box.lo.0
        invariant cellData == Append(old(cellData), Visited(box, ix, box.lo.1), item)
        invariant dirtyCells == old(dirtyCells) + Visited(box, ix, box.lo.1)
        invariant batches == old(batches)
      {
        IndexColumn(item, box, ix, old(cellData), old(dirtyCells));
        ix := ix + 1;
      }
      VisitedAll(box, ix);
      if old(Consistent()) {
        AppendKeepsFresh(old(batches), old(cellData), old(dirtyCells), SpanCells(box), item);
      }
    }

    /** The inner loop of indexElement: index item into column ix of the box, bottom to top. */
    method IndexColumn(item: T, box: Span, ix: int, ghost data0: Data<T>, ghost dirty0: set<Cell>)
      requires box.lo.0 <= ix <= box.hi.0
      requires cellData == Append(data0, Visited(box, ix, box.lo.1), item)
      requires dirtyCells == dirty0 + Visited(box, ix, box.lo.1)
      modifies this
      ensures cellData == Append(data0, Visited(box, ix + 1, box.lo.1), item)
      ensures dirtyCells == dirty0 + Visited(box, ix + 1, box.lo.1)
      ensures batches == old(batches)
    {
      var iy := box.lo.1;
      while iy <= box.hi.1
        invariant iy >= box.lo.1
        invariant cellData == Append(data0, Visited(box, ix, iy), item)
        invariant dirtyCells == dirty0 + Visited(box, ix, iy)
        invariant batches == old(batches)
      {
        var key := (ix, iy);
        Push(key, item);
        VisitedNext(box, ix, iy);
        AppendOneMore(data0, Visited(box, ix, iy), key, item);
        iy := iy + 1;
      }
      VisitedColumnDone(box, ix, iy);
    }

    /** Append item to the list of cell key, creating the list when the cell has none, and mark the cell dirty. */
    method Push(key: Cell, item: T)
      modifies this
      ensures cellData == AppendOne(old(cellData), key, item)
      ensures dirtyCells == old(dirtyCells) + {key}
      ensures batches == old(batches)
    {
      if key !in cellData {
        cellData := cellData[key := []];
      }
      cellData := cellData[key := cellData[key] + [item]];
      dirtyCells := dirtyCells + {key};
    }

    /** Mark the cell containing (x, y) dirty. */
    method MarkCellDirty(x: int, y: int)
      modifies this
      ensures dirtyCells == old(dirtyCells) + {CellOf(x, y, cellSize)}
      ensures batches == old(batches) && cellData == old(cellData)
      ensures old(Consistent()) ==> Consistent()
    {
      var key := CellOf(x, y, cellSize);
      dirtyCells := dirtyCells + {key};
      if old(Consistent()) {
        MarkKeepsFresh(batches, cellData, old(dirtyCells), {key});
      }
    }

    /** Mark every cell that has data dirty. */
    method MarkAllDirty()
      modifies this
      ensures dirtyCells == old(dirtyCells) + cellData.Keys
      ensures batches == old(batches) && cellData == old(cellData)
      ensures Consistent()
    {
      var todo := cellData.Keys;
      ghost var done: set<Cell> := {};
      while todo != {}
        invariant done + todo == cellData.Keys
        invariant dirtyCells == old(dirtyCells) + done
        invariant batches == old(batches) && cellData == old(cellData)
        decreases todo
      {
        var key :| key in todo;
        dirtyCells := dirtyCells + {key};
        done := done + {key};
        todo := todo - {key};
      }
      MarkAllFresh(batches, cellData, old(dirtyCells));
    }

    /** Drop every batch, all indexed data and every dirty mark. */
    method ClearIndexing()
      modifies this
      ensures batches == map[] && cellData == map[] && dirtyCells == {}
      ensures Consistent()
    {
      batches := map[];
      cellData := map[];
      dirtyCells := {};
    }

    /**
     * Redraw: when forced, re-render every cell that has data; otherwise re-render every
     * dirty cell that has data and drop the batch of every dirty cell that has none.
     * Either way no cell is dirty afterwards.
     */
    method Redraw(force: bool)
      modifies this
      ensures force ==> batches == Rebuild(old(batches), old(cellData), old(cellData).Keys)
      ensures !force ==> batches == Rebuild(old(batches), old(cellData), old(dirtyCells))
      ensures cellData == old(cellData) && dirtyCells == {}
      ensures force || old(Consistent()) ==> Consistent()
    {
      if force {
        RedrawCells(cellData.Keys);
        ForcedRebuildFresh(old(batches), cellData);
      } else {
        RedrawCells(dirtyCells);
        if old(Consistent()) {
          RebuildFresh(old(batches), cellData, old(dirtyCells));
        }
      }
      dirtyCells := {};
    }

    /** The loop of redraw over the cells ks, in any order. */
    method RedrawCells(ks: set<Cell>)
      modifies this
      ensures batches == Rebuild(old(batches), cellData, ks)
      ensures cellData == old(cellData) && dirtyCells == old(dirtyCells)
    {
      var todo := ks;
      ghost var done: set<Cell> := {};
      RebuildNone(batches, cellData);
      while todo != {}
        invariant done + todo == ks && done !! todo
        invariant batches == Rebuild(old(batches), cellData, done)
        invariant cellData == old(cellData) && dirtyCells == old(dirtyCells)
        decreases todo
      {
        var key :| key in todo;
        ghost var before := batches;
        if key in cellData {
          RenderCell(key, cellData[key]);
        } else if key in batches {
          batches := batches - {key};
        }
        assert batches == RebuildOne(before, cellData, key);
        RebuildOneMore(old(batches), cellData, done, key);
        done := done + {key};
        todo := todo - {key};
      }
    }

    /**
     * Render the batch of cell key from items, creating a shown batch when the cell has
     * none: its commands become the setup followed by one draw per item.
     */
    method RenderCell(key: Cell, items: seq<T>)
      modifies this
      ensures batches == old(batches)[key := Render(old(batches), key, items)]
      ensures cellData == old(cellData) && dirtyCells == old(dirtyCells)
    {
      var g: Batch<T>;
      if key in batches {
        g := batches[key];
      } else {
        g := Batch([], true);
        batches := batches[key := g];
      }
      g := Paint(g, items);
      batches := batches[key := g];
    }

    /**
     * The drawing part of renderCell: clear the batch, issue the line-style setup, then
     * draw each item in order. The batch's flag is untouched.
     */
    static method Paint(g: Batch<T>, items: seq<T>) returns (r: Batch<T>)
      ensures r.content == Rendered(items)
      ensures r.content[0] == Setup && |r.content| == |items| + 1
      ensures forall i :: 0 <= i < |items| ==> r.content[i + 1] == Draw(items[i])
      ensures r.visible == g.visible
    {
      r := g.(content := []);
      r := r.(content := r.content + [Setup]);
      for i := 0 to |items|
        invariant r.content == [Setup] + Draws(items[..i])
        invariant r.visible == g.visible
      {
        assert items[..i + 1][..i] == items[..i];
        r := r.(content := r.content + [Draw(items[i])]);
      }
      assert items[..|items|] == items;
    }

    /**
     * Cull to the view: with no engine attached nothing happens; otherwise every batch is
     * shown exactly when its cell lies within one cell of the cells the view overlaps.
     * visibleIds is not consulted.
     */
    method Update(visibleIds: set<string>, view: Option<Rect>)
      modifies this
      ensures view.None? ==> batches == old(batches)
      ensures view.Some? ==> batches == Cull(old(batches), ViewSpan(view.value, cellSize))
      ensures cellData == old(cellData) && dirtyCells == old(dirtyCells)
      ensures old(Consistent()) ==> Consistent()
    {
      if view.None? {
        return;
      }
      var v := view.value;
      var startX := FloorDiv(v.x, cellSize);
      var endX := FloorDiv(v.x + v.width, cellSize);
      var startY := FloorDiv(v.y, cellSize);
      var endY := FloorDiv(v.y + v.height, cellSize);

      var todo := batches.Keys;
      ghost var done: set<Cell> := {};
      while todo != {}
        invariant done + todo == old(batches).Keys && done !! todo
        invariant batches.Keys == old(batches).Keys
        invariant forall k :: k in batches ==>
          batches[k] == if k in done then old(batches)[k].(visible := InSpan(k, ViewSpan(v, cellSize))) else old(batches)[k]
        invariant cellData == old(cellData) && dirtyCells == old(dirtyCells)
        decreases todo
      {
        var key :| key in todo;
        var (cx, cy) := key;
        var isVisible := cx >= startX - 1 && cx <= endX + 1 && cy >= startY - 1 && cy <= endY + 1;
        batches := batches[key := batches[key].(visible := isVisible)];
        done := done + {key};
        todo := todo - {key};
      }
      assert batches == Cull(old(batches), ViewSpan(v, cellSize));
      if old(Consistent()) {
        CullKeepsFresh(old(batches), cellData, dirtyCells, ViewSpan(v, cellSize));
      }
    }

    /**
     * Clear the commands of every batch; batches and their flags stay. This does not keep
     * Consistent() (BlankBreaksFresh): only a forced redraw, or marking the cells dirty, restores it.
     */
    method ClearAllGraphics()
      modifies this
      ensures batches == Blank(old(batches))
      ensures cellData == old(cellData) && dirtyCells == old(dirtyCells)
    {
      var todo := batches.Keys;
      ghost var done: set<Cell> := {};
      while todo != {}
        invariant done + todo == old(batches).Keys && done !! todo
        invariant batches.Keys == old(batches).Keys
        invariant forall k :: k in batches ==>
          batches[k] == if k in done then old(batches)[k].(content := []) else old(batches)[k]
        invariant cellData == old(cellData) && dirtyCells == old(dirtyCells)
        decreases todo
      {
        var key :| key in todo;
        batches := batches[key := batches[key].(content := [])];
        done := done + {key};
        todo := todo - {key};
      }
    }

    /** Release the layer: drop every batch, all indexed data and every dirty mark. */
    method Destroy()
      modifies this
      ensures batches == map[] && cellData == map[] && dirtyCells == {}
      ensures Consistent()
    {
      ClearIndexing();
    }
  }
}

=== FILE: cells.dfy ===
/**
 * Cell coordinates shared by the spatial hash grid and the chunked render
 * cache: a world point (x, y) lies in the cell (floor(x / size), floor(y / size)).
 * Cells are keyed by the integer pair itself rather than by the "cx,cy" string.
 */
module Cells {

  /** A cell coordinate (cx, cy). */
  type Cell = (int, int)

  /** A cell size in world units; the grid and the cache both need it positive. */
  type CellSize = s: int | s > 0 witness 256

  function Min(a: int, b: int): int { if a <= b then a else b }

  function Max(a: int, b: int): int { if a <= b then b else a }

  function Abs(a: int): nat { if a < 0 then -a else a }

  /** Math.floor(v / size). Dafny's `/` on int is Euclidean, which is the floor for a positive divisor. */
  function FloorDiv(v: int, size: CellSize): int
  {
    v / size
  }

  /** v lies in the cell [q * size, q * size + size) of its floor q. */
  lemma FloorDivBounds(v: int, size: CellSize)
    ensures FloorDiv(v, size) * size <= v < FloorDiv(v, size) * size + size
  {
  }

  /** The floor is the only integer whose cell [q*size, q*size + size) holds v. */
  lemma FloorDivUnique(v: int, size: CellSize, q: int)
    requires q * size <= v < q * size + size
    ensures q == FloorDiv(v, size)
  {
    var f := FloorDiv(v, size);
    FloorDivBounds(v, size);
    if q < f {
      MulMonotone(q + 1, f, size);
    } else if f < q {
      MulMonotone(f + 1, q, size);
    }
  }

  lemma MulMonotone(a: int, b: int, size: CellSize)
    requires a <= b
    ensures a * size <= b * size
  {
  }

  /** Flooring keeps the order of coordinates. */
  lemma FloorDivMonotone(a: int, b: int, size: CellSize)
    requires a <= b
    ensures FloorDiv(a, size) <= FloorDiv(b, size)
  {
    var qa, qb := FloorDiv(a, size), FloorDiv(b, size);
    FloorDivBounds(a, size);
    FloorDivBounds(b, size);
    if qb < qa {
      MulMonotone(qb + 1, qa, size);
    }
  }

  /** The cell containing the world point (x, y) (getCellKey without the string formatting). */
  function CellOf(x: int, y: int, size: CellSize): Cell
  {
    (FloorDiv(x, size), FloorDiv(y, size))
  }

  /** Number of unit steps between two cells. */
  function CellDistance(a: Cell, b: Cell): nat
  {
    Abs(b.0 - a.0) + Abs(b.1 - a.1)
  }

  /** An inclusive rectangle of cells, lo.0..hi.0 by lo.1..hi.1 (empty when lo > hi on an axis). */
  datatype Span = Span(lo: Cell, hi: Cell)

  predicate InSpan(c: Cell, sp: Span)
  {
    sp.lo.0 <= c.0 <= sp.hi.0 && sp.lo.1 <= c.1 <= sp.hi.1
  }

  /** The cells of a span, as a finite set. */
  function SpanCells(sp: Span): (cs: set<Cell>)
    ensures forall c :: c in cs <==> InSpan(c, sp)
  {
    set x, y | sp.lo.0 <= x <= sp.hi.0 && sp.lo.1 <= y <= sp.hi.1 :: (x, y)
  }

  /**
   * The cells of sp that come before (ix, iy) in the order of the source's nested loops
   * (`for ix { for iy { ... } }`): whole columns left of ix, then column ix below iy.
   */
  function Visited(sp: Span, ix: int, iy: int): set<Cell>
  {
    set c | c in SpanCells(sp) && (c.0 < ix || (c.0 == ix && c.1 < iy))
  }

  lemma VisitedNone(sp: Span)
    ensures Visited(sp, sp.lo.0, sp.lo.1) == {}
  {
  }

  lemma VisitedNext(sp: Span, ix: int, iy: int)
    requires InSpan((ix, iy), sp)
    ensures Visited(sp, ix, iy + 1) == Visited(sp, ix, iy) + {(ix, iy)}
  {
  }

  lemma VisitedColumnDone(sp: Span, ix: int, iy: int)
    requires iy > sp.hi.1
    ensures Visited(sp, ix + 1, sp.lo.1) == Visited(sp, ix, iy)
  {
  }

  lemma VisitedAll(sp: Span, ix: int)
    requires ix > sp.hi.0
    ensures Visited(sp, ix, sp.lo.1) == SpanCells(sp)
  {
  }

  /**
   * The cells of the axis-aligned bounding box of (x1, y1) and (x2, y2):
   * floor(min x / size)..floor(max x / size) by floor(min y / size)..floor(max y / size).
   */
  function BoundingSpan(x1: int, y1: int, x2: int, y2: int, size: CellSize): Span
  {
    Span(CellOf(Min(x1, x2), Min(y1, y2), size), CellOf(Max(x1, x2), Max(y1, y2), size))
  }

  /** The cells overlapping the rectangle [x, x + w] x [y, y + h]. */
  function RectSpan(x: int, y: int, w: int, h: int, size: CellSize): Span
  {
    Span(CellOf(x, y, size), CellOf(x + w, y + h, size))
  }

  /** The span of cells between two cells, whichever corner each is. */
  function Hull(a: Cell, b: Cell): Span
  {
    Span((Min(a.0, b.0), Min(a.1, b.1)), (Max(a.0, b.0), Max(a.1, b.1)))
  }

  /** Every point of a rectangle lies in one of the rectangle's cells. */
  lemma RectCoversPoints(x: int, y: int, w: int, h: int, size: CellSize, px: int, py: int)
    requires x <= px <= x + w && y <= py <= y + h
    ensures InSpan(CellOf(px, py, size), RectSpan(x, y, w, h, size))
  {
    FloorDivMonotone(x, px, size);
    FloorDivMonotone(px, x + w, size);
    FloorDivMonotone(y, py, size);
    FloorDivMonotone(py, y + h, size);
  }

  /** The bounding box of two points spans exactly the cells between the points' own cells. */
  lemma BoundingSpanIsHull(x1: int, y1: int, x2: int, y2: int, size: CellSize)
    ensures BoundingSpan(x1, y1, x2, y2, size) == Hull(CellOf(x1, y1, size), CellOf(x2, y2, size))
  {
    if x1 <= x2 { FloorDivMonotone(x1, x2, size); } else { FloorDivMonotone(x2, x1, size); }
    if y1 <= y2 { FloorDivMonotone(y1, y2, size); } else { FloorDivMonotone(y2, y1, size); }
  }
}

=== FILE: dda.dfy ===
/**
 * The grid traversal behind SpatialHashGrid.getLineCells: a digital differential
 * analyzer that walks from the cell of the first endpoint towards the cell of the
 * second, stepping into the x- or y-neighbour whose boundary the segment crosses first.
 * Parametric distances are exact reals; the `Infinity` of an axis the segment does not
 * move along is its own case of `Param`.
 */
module Dda {
  import opened Cells

  /** The traversal stops once it has collected more than this many cells. */
  const SafetyLimit: nat := 10000

  /** A parametric distance along the segment: a real, or Infinity for an axis with no extent. */
  datatype Param = Finite(t: real) | Infinity

  /** The `<` of the source on numbers that may be Infinity. */
  predicate Less(a: Param, b: Param)
  {
    match a
    case Infinity => false
    case Finite(x) => b.Infinity? || x < b.t
  }

  /** The `+` of the source on numbers that may be Infinity. */
  function Plus(a: Param, b: Param): Param
  {
    if a.Finite? && b.Finite? then Finite(a.t + b.t) else Infinity
  }

  /** What stays fixed during a traversal: step directions, per-cell parametric deltas, the end cell. */
  datatype Line = Line(stepX: int, stepY: int, tDeltaX: Param, tDeltaY: Param, endCx: int, endCy: int)

  /** The loop variables of the traversal: the current cell and the next boundary crossing per axis. */
  datatype Walker = Walker(cx: int, cy: int, tMaxX: Param, tMaxY: Param)

  function Pos(w: Walker): Cell { (w.cx, w.cy) }

  function EndCell(l: Line): Cell { (l.endCx, l.endCy) }

  /** Number of unit steps between a cell and the end cell. */
  function Distance(l: Line, c: Cell): nat
  {
    CellDistance(c, EndCell(l))
  }

  /** The walker is at distance zero exactly in the end cell, which is where the loop stops. */
  lemma DistanceZero(l: Line, c: Cell)
    ensures Distance(l, c) == 0 <==> c == EndCell(l)
  {
  }

  /** The initial state of the traversal of the segment (x1, y1)-(x2, y2). */
  function Setup(x1: int, y1: int, x2: int, y2: int, size: CellSize): (Line, Walker)
  {
    var cx := FloorDiv(x1, size);
    var cy := FloorDiv(y1, size);
    var dx := x2 - x1;
    var dy := y2 - y1;
    var stepX := if dx >= 0 then 1 else -1;
    var stepY := if dy >= 0 then 1 else -1;
    var nextBoundaryX := if dx >= 0 then (cx + 1) * size else cx * size;
    var nextBoundaryY := if dy >= 0 then (cy + 1) * size else cy * size;
    var tMaxX := if dx != 0 then Finite((nextBoundaryX - x1) as real / dx as real) else Infinity;
    var tMaxY := if dy != 0 then Finite((nextBoundaryY - y1) as real / dy as real) else Infinity;
    var tDeltaX := if dx != 0 then Finite((size * stepX) as real / dx as real) else Infinity;
    var tDeltaY := if dy != 0 then Finite((size * stepY) as real / dy as real) else Infinity;
    (Line(stepX, stepY, tDeltaX, tDeltaY, FloorDiv(x2, size), FloorDiv(y2, size)),
     Walker(cx, cy, tMaxX, tMaxY))
  }

  /** The step directions are unit steps. */
  predicate UnitSteps(l: Line)
  {
    (l.stepX == 1 || l.stepX == -1) && (l.stepY == 1 || l.stepY == -1)
  }

  /** The step directions are unit steps that point from the walker's cell towards the end cell. */
  predicate Aimed(l: Line, w: Walker)
  {
    && UnitSteps(l)
    && (if l.stepX == 1 then w.cx <= l.endCx else l.endCx <= w.cx)
    && (if l.stepY == 1 then w.cy <= l.endCy else l.endCy <= w.cy)
  }

  lemma SetupAimed(x1: int, y1: int, x2: int, y2: int, size: CellSize)
    ensures Aimed(Setup(x1, y1, x2, y2, size).0, Setup(x1, y1, x2, y2, size).1)
    ensures Pos(Setup(x1, y1, x2, y2, size).1) == CellOf(x1, y1, size)
    ensures EndCell(Setup(x1, y1, x2, y2, size).0) == CellOf(x2, y2, size)
  {
    if x1 <= x2 { FloorDivMonotone(x1, x2, size); } else { FloorDivMonotone(x2, x1, size); }
    if y1 <= y2 { FloorDivMonotone(y1, y2, size); } else { FloorDivMonotone(y2, y1, size); }
  }

  function StepX(l: Line, w: Walker): Walker
  {
    w.(tMaxX := Plus(w.tMaxX, l.tDeltaX), cx := w.cx + l.stepX)
  }

  function StepY(l: Line, w: Walker): Walker
  {
    w.(tMaxY := Plus(w.tMaxY, l.tDeltaY), cy := w.cy + l.stepY)
  }

  /** One iteration of the loop as the source writes it: step in x when tMaxX < tMaxY, else in y. */
  function StepAsWritten(l: Line, w: Walker): Walker
  {
    if Less(w.tMaxX, w.tMaxY) then StepX(l, w) else StepY(l, w)
  }

  /**
   * One iteration of the loop, corrected: an axis whose coordinate already equals the
   * end cell's is never stepped; otherwise the choice is the source's.
   */
  function Step(l: Line, w: Walker): Walker
  {
    if w.cx != l.endCx && (w.cy == l.endCy || Less(w.tMaxX, w.tMaxY)) then StepX(l, w) else StepY(l, w)
  }

  /** The walker after n corrected steps. */
  function Advance(l: Line, w: Walker, n: nat): Walker
  {
    if n == 0 then w else Step(l, Advance(l, w, n - 1))
  }

  /** The walker after n steps as written. */
  function AdvanceAsWritten(l: Line, w: Walker, n: nat): Walker
  {
    if n == 0 then w else StepAsWritten(l, AdvanceAsWritten(l, w, n - 1))
  }

  /** The cells visited by the first n corrected steps, in order, starting cell included. */
  function Path(l: Line, w: Walker, n: nat): seq<Cell>
  {
    if n == 0 then [Pos(w)] else Path(l, w, n - 1) + [Pos(Advance(l, w, n))]
  }

  function Elems(s: seq<Cell>): set<Cell>
  {
    set c | c in s
  }

  /** Number of steps a traversal takes: to the end cell, or until the cap fires. */
  function StepsFrom(l: Line, w: Walker): nat
  {
    Min(Distance(l, Pos(w)), SafetyLimit)
  }

  /** The set of cells getLineCells returns for the segment (x1, y1)-(x2, y2). */
  function Traversal(x1: int, y1: int, x2: int, y2: int, size: CellSize): set<Cell>
  {
    var lw := Setup(x1, y1, x2, y2, size);
    Elems(Path(lw.0, lw.1, StepsFrom(lw.0, lw.1)))
  }

  /** Away from the end cell, a corrected step moves one unit along one axis, towards the end. */
  lemma StepTowardsEnd(l: Line, w: Walker)
    requires Aimed(l, w) && Pos(w) != EndCell(l)
    ensures Aimed(l, Step(l, w))
    ensures Distance(l, Pos(Step(l, w))) + 1 == Distance(l, Pos(w))
    ensures var n := Step(l, w);
      (n.cx == w.cx + l.stepX && n.cy == w.cy) || (n.cx == w.cx && n.cy == w.cy + l.stepY)
    ensures InSpan(Pos(Step(l, w)), Hull(Pos(w), EndCell(l)))
  {
  }

  /**
   * Within the distance to the end cell, the corrected walk keeps pointing at the end
   * and gets one step closer per iteration, so it arrives after exactly that many steps.
   */
  lemma {:induction false} AdvanceTowardsEnd(l: Line, w: Walker, n: nat)
    requires Aimed(l, w) && n <= Distance(l, Pos(w))
    ensures Aimed(l, Advance(l, w, n))
    ensures Distance(l, Pos(Advance(l, w, n))) == Distance(l, Pos(w)) - n
    ensures InSpan(Pos(Advance(l, w, n)), Hull(Pos(w), EndCell(l)))
  {
    if n > 0 {
      AdvanceTowardsEnd(l, w, n - 1);
      StepTowardsEnd(l, Advance(l, w, n - 1));
    }
  }

  /** The walk reaches the end cell after Distance steps, and not earlier. */
  lemma ReachesEnd(l: Line, w: Walker)
    requires Aimed(l, w)
    ensures Pos(Advance(l, w, Distance(l, Pos(w)))) == EndCell(l)
    ensures forall n: nat :: n < Distance(l, Pos(w)) ==> Pos(Advance(l, w, n)) != EndCell(l)
  {
    AdvanceTowardsEnd(l, w, Distance(l, Pos(w)));
    forall n: nat | n < Distance(l, Pos(w))
      ensures Pos(Advance(l, w, n)) != EndCell(l)
    {
      AdvanceTowardsEnd(l, w, n);
    }
  }

  /** The i-th entry of a path is the cell of the walker after i steps. */
  lemma {:induction false} PathIndex(l: Line, w: Walker, n: nat)
    ensures |Path(l, w, n)| == n + 1
    ensures forall i :: 0 <= i <= n ==> Path(l, w, n)[i] == Pos(Advance(l, w, i))
  {
    if n > 0 {
      PathIndex(l, w, n - 1);
    }
  }

  /**
   * The path of the first n <= Distance steps: it starts at the walker's cell, consecutive
   * cells differ by exactly one unit step (stepX in x or stepY in y), no cell repeats, and
   * every cell lies between the start cell and the end cell.
   */
  lemma PathShape(l: Line, w: Walker, n: nat)
    requires Aimed(l, w) && n <= Distance(l, Pos(w))
    ensures |Path(l, w, n)| == n + 1
    ensures Path(l, w, n)[0] == Pos(w)
    ensures forall i :: 0 <= i < n ==>
      var a, b := Path(l, w, n)[i], Path(l, w, n)[i + 1];
      (b.0 == a.0 + l.stepX && b.1 == a.1) || (b.0 == a.0 && b.1 == a.1 + l.stepY)
    ensures forall i, j :: 0 <= i < j <= n ==> Path(l, w, n)[i] != Path(l, w, n)[j]
    ensures forall c :: c in Path(l, w, n) ==> InSpan(c, Hull(Pos(w), EndCell(l)))
  {
    var p := Path(l, w, n);
    PathIndex(l, w, n);
    forall i | 0 <= i < n
      ensures (p[i + 1].0 == p[i].0 + l.stepX && p[i + 1].1 == p[i].1)
           || (p[i + 1].0 == p[i].0 && p[i + 1].1 == p[i].1 + l.stepY)
    {
      AdvanceTowardsEnd(l, w, i);
      StepTowardsEnd(l, Advance(l, w, i));
    }
    PathDistinct(l, w, n);
    forall c | c in p
      ensures InSpan(c, Hull(Pos(w), EndCell(l)))
    {
      var i :| 0 <= i < |p| && p[i] == c;
      AdvanceTowardsEnd(l, w, i);
    }
  }

  /** The corrected path never repeats a cell: each step is one unit closer to the end cell. */
  lemma PathDistinct(l: Line, w: Walker, n: nat)
    requires Aimed(l, w) && n <= Distance(l, Pos(w))
    ensures |Path(l, w, n)| == n + 1
    ensures forall i, j :: 0 <= i < j <= n ==> Path(l, w, n)[i] != Path(l, w, n)[j]
  {
    PathIndex(l, w, n);
    forall i, j | 0 <= i < j <= n
      ensures Pos(Advance(l, w, i)) != Pos(Advance(l, w, j))
    {
      AdvanceTowardsEnd(l, w, i);
      AdvanceTowardsEnd(l, w, j);
    }
  }

  /** A path without repeated cells has as many distinct cells as entries. */
  lemma {:induction false} DistinctElems(s: seq<Cell>)
    requires forall i, j :: 0 <= i < j < |s| ==> s[i] != s[j]
    ensures |Elems(s)| == |s|
  {
    if s != [] {
      var init := s[..|s| - 1];
      DistinctElems(init);
      assert Elems(s) == Elems(init) + {s[|s| - 1]};
      assert s[|s| - 1] !in Elems(init);
    }
  }

  /** Within the distance to the end cell the path holds n + 1 distinct cells. */
  lemma PathSize(l: Line, w: Walker, n: nat)
    requires Aimed(l, w) && n <= Distance(l, Pos(w))
    ensures |Elems(Path(l, w, n))| == n + 1
  {
    PathShape(l, w, n);
    DistinctElems(Path(l, w, n));
  }

  /** One more step of the walk adds the walker's new cell to the path's cells. */
  lemma PathGrows(l: Line, w: Walker, n: nat)
    ensures Advance(l, w, n + 1) == Step(l, Advance(l, w, n))
    ensures Elems(Path(l, w, n + 1)) == Elems(Path(l, w, n)) + {Pos(Advance(l, w, n + 1))}
  {
  }

  /**
   * One iteration of the loop of getLineCells short of the end: the walker takes one
   * corrected step, gets one cell closer, and the collected set gains exactly one cell.
   */
  lemma WalkStep(l: Line, w: Walker, n: nat)
    requires Aimed(l, w) && n < Distance(l, Pos(w))
    ensures Advance(l, w, n + 1) == Step(l, Advance(l, w, n))
    ensures Distance(l, Pos(Advance(l, w, n + 1))) == Distance(l, Pos(w)) - (n + 1)
    ensures Elems(Path(l, w, n + 1)) == Elems(Path(l, w, n)) + {Pos(Advance(l, w, n + 1))}
    ensures |Elems(Path(l, w, n + 1))| == n + 2
  {
    AdvanceTowardsEnd(l, w, n + 1);
    PathGrows(l, w, n);
    PathSize(l, w, n + 1);
  }

  /**
   * What getLineCells returns: the start cell; only the start cell when both endpoints
   * share a cell; Min(distance, cap) + 1 cells in all, so never more than cap + 1; the end
   * cell exactly when the distance is within the cap; and only cells of the segment's
   * bounding box.
   */
  lemma TraversalFacts(x1: int, y1: int, x2: int, y2: int, size: CellSize)
    ensures var t := Traversal(x1, y1, x2, y2, size);
      var dist := CellDistance(CellOf(x1, y1, size), CellOf(x2, y2, size));
      && CellOf(x1, y1, size) in t
      && (CellOf(x1, y1, size) == CellOf(x2, y2, size) ==> t == {CellOf(x1, y1, size)})
      && |t| == Min(dist, SafetyLimit) + 1
      && |t| <= SafetyLimit + 1
      && (CellOf(x2, y2, size) in t <==> dist <= SafetyLimit)
      && t <= SpanCells(BoundingSpan(x1, y1, x2, y2, size))
  {
    var (l, w) := Setup(x1, y1, x2, y2, size);
    var n := StepsFrom(l, w);
    var p := Path(l, w, n);
    SetupAimed(x1, y1, x2, y2, size);
    BoundingSpanIsHull(x1, y1, x2, y2, size);
    PathShape(l, w, n);
    PathIndex(l, w, n);
    DistinctElems(p);
    assert p[0] in p;
    ReachesEnd(l, w);
    if n == Distance(l, Pos(w)) {
      assert p[n] in p;
    } else {
      forall c | c in p
        ensures c != EndCell(l)
      {
        var i :| 0 <= i < |p| && p[i] == c;
      }
    }
    if CellOf(x1, y1, size) == CellOf(x2, y2, size) {
      assert p == [Pos(w)];
    }
  }

  /** A segment within one cell traverses that cell alone. */
  lemma TraversalOneCell(x1: int, y1: int, x2: int, y2: int, size: CellSize)
    requires CellOf(x1, y1, size) == CellOf(x2, y2, size)
    ensures Traversal(x1, y1, x2, y2, size) == {CellOf(x1, y1, size)}
  {
    var (l, w) := Setup(x1, y1, x2, y2, size);
    SetupAimed(x1, y1, x2, y2, size);
    assert Path(l, w, StepsFrom(l, w)) == [Pos(w)];
  }

  /** How far a cell lies along the step directions; every step adds exactly one. */
  function Progress(l: Line, c: Cell): int
  {
    (if l.stepX == 1 then c.0 else -c.0) + (if l.stepY == 1 then c.1 else -c.1)
  }

  /** The cells visited by the first n as-written steps, in order, starting cell included. */
  function PathAsWritten(l: Line, w: Walker, n: nat): seq<Cell>
  {
    if n == 0 then [Pos(w)] else PathAsWritten(l, w, n - 1) + [Pos(AdvanceAsWritten(l, w, n))]
  }

  /**
   * The number of iterations the source's loop runs, counting from iteration n: it stops
   * at the first iteration that is in the end cell, or at the cap (by AsWrittenPathShape the
   * set then holds SafetyLimit + 1 cells, which is what its break tests).
   */
  function StopAsWritten(l: Line, w: Walker, n: nat): (r: nat)
    requires n <= SafetyLimit
    ensures n <= r <= SafetyLimit
    ensures r == SafetyLimit || Pos(AdvanceAsWritten(l, w, r)) == EndCell(l)
    ensures forall i :: n <= i < r ==> Pos(AdvanceAsWritten(l, w, i)) != EndCell(l)
    decreases SafetyLimit - n
  {
    if n == SafetyLimit || Pos(AdvanceAsWritten(l, w, n)) == EndCell(l) then n
    else StopAsWritten(l, w, n + 1)
  }

  /** The set of cells getLineCells returns as written, tie rule included. */
  function TraversalAsWritten(x1: int, y1: int, x2: int, y2: int, size: CellSize): set<Cell>
  {
    var lw := Setup(x1, y1, x2, y2, size);
    Elems(PathAsWritten(lw.0, lw.1, StopAsWritten(lw.0, lw.1, 0)))
  }

  /** An as-written step moves one unit along one axis, in that axis's step direction. */
  lemma StepAsWrittenUnit(l: Line, w: Walker)
    requires UnitSteps(l)
    ensures var n := StepAsWritten(l, w);
      (n.cx == w.cx + l.stepX && n.cy == w.cy) || (n.cx == w.cx && n.cy == w.cy + l.stepY)
    ensures Progress(l, Pos(StepAsWritten(l, w))) == Progress(l, Pos(w)) + 1
  {
  }

  /** After n as-written steps the walker has made exactly n units of progress. */
  lemma {:induction false} AsWrittenProgress(l: Line, w: Walker, n: nat)
    requires UnitSteps(l)
    ensures Progress(l, Pos(AdvanceAsWritten(l, w, n))) == Progress(l, Pos(w)) + n
  {
    if n > 0 {
      AsWrittenProgress(l, w, n - 1);
      StepAsWrittenUnit(l, AdvanceAsWritten(l, w, n - 1));
    }
  }

  /** The i-th entry of an as-written path is the cell of the walker after i steps. */
  lemma {:induction false} PathAsWrittenIndex(l: Line, w: Walker, n: nat)
    ensures |PathAsWritten(l, w, n)| == n + 1
    ensures forall i :: 0 <= i <= n ==> PathAsWritten(l, w, n)[i] == Pos(AdvanceAsWritten(l, w, i))
  {
    if n > 0 {
      PathAsWrittenIndex(l, w, n - 1);
    }
  }

  /**
   * The as-written path, on every input: it starts at the walker's cell, consecutive cells
   * differ by exactly one unit step (stepX in x or stepY in y), and no cell repeats, so
   * after n iterations the set holds n + 1 cells.
   */
  lemma AsWrittenPathShape(l: Line, w: Walker, n: nat)
    requires UnitSteps(l)
    ensures |PathAsWritten(l, w, n)| == n + 1
    ensures PathAsWritten(l, w, n)[0] == Pos(w)
    ensures forall i :: 0 <= i < n ==>
      var a, b := PathAsWritten(l, w, n)[i], PathAsWritten(l, w, n)[i + 1];
      (b.0 == a.0 + l.stepX && b.1 == a.1) || (b.0 == a.0 && b.1 == a.1 + l.stepY)
    ensures forall i, j :: 0 <= i < j <= n ==> PathAsWritten(l, w, n)[i] != PathAsWritten(l, w, n)[j]
    ensures |Elems(PathAsWritten(l, w, n))| == n + 1
  {
    var p := PathAsWritten(l, w, n);
    PathAsWrittenIndex(l, w, n);
    forall i | 0 <= i < n
      ensures (p[i + 1].0 == p[i].0 + l.stepX && p[i + 1].1 == p[i].1)
           || (p[i + 1].0 == p[i].0 && p[i + 1].1 == p[i].1 + l.stepY)
    {
      StepAsWrittenUnit(l, AdvanceAsWritten(l, w, i));
    }
    forall i, j | 0 <= i < j <= n
      ensures p[i] != p[j]
    {
      AsWrittenProgress(l, w, i);
      AsWrittenProgress(l, w, j);
    }
    DistinctElems(p);
  }

  /**
   * What getLineCells returns as written, on every input: the start cell, at most cap + 1
   * cells, and exactly cap + 1 when the walk does not reach the end cell.
   */
  lemma TraversalAsWrittenFacts(x1: int, y1: int, x2: int, y2: int, size: CellSize)
    ensures var t := TraversalAsWritten(x1, y1, x2, y2, size);
      && CellOf(x1, y1, size) in t
      && |t| <= SafetyLimit + 1
      && (CellOf(x2, y2, size) !in t ==> |t| == SafetyLimit + 1)
  {
    var (l, w) := Setup(x1, y1, x2, y2, size);
    var r := StopAsWritten(l, w, 0);
    var p := PathAsWritten(l, w, r);
    SetupAimed(x1, y1, x2, y2, size);
    AsWrittenPathShape(l, w, r);
    PathAsWrittenIndex(l, w, r);
    assert p[0] in p;
    if r < SafetyLimit {
      assert p[r] in p;
    }
  }

  /** The as-written step leaves the end row or column: it steps an axis already at the end. */
  predicate Leaves(l: Line, w: Walker)
  {
    if Less(w.tMaxX, w.tMaxY) then w.cx == l.endCx else w.cy == l.endCy
  }

  /** The walker lies past the end cell along some step direction. */
  predicate Beyond(l: Line, w: Walker)
  {
    || (if l.stepX == 1 then w.cx > l.endCx else w.cx < l.endCx)
    || (if l.stepY == 1 then w.cy > l.endCy else w.cy < l.endCy)
  }

  /** Away from the end cell, the two steps differ only where the as-written one leaves. */
  lemma StepAgrees(l: Line, w: Walker)
    requires Pos(w) != EndCell(l) && !Leaves(l, w)
    ensures Step(l, w) == StepAsWritten(l, w)
  {
  }

  /** A leaving step puts the walker past the end cell. */
  lemma LeavingGoesBeyond(l: Line, w: Walker)
    requires UnitSteps(l) && Pos(w) != EndCell(l) && Leaves(l, w)
    ensures Beyond(l, StepAsWritten(l, w))
  {
  }

  /** Once past the end cell, the as-written walk stays past it, so it never reaches it. */
  lemma {:induction false} BeyondStays(l: Line, w: Walker, j: nat, m: nat)
    requires UnitSteps(l) && j <= m && Beyond(l, AdvanceAsWritten(l, w, j))
    ensures Beyond(l, AdvanceAsWritten(l, w, m))
    ensures Pos(AdvanceAsWritten(l, w, m)) != EndCell(l)
    decreases m - j
  {
    if j < m {
      StepAsWrittenUnit(l, AdvanceAsWritten(l, w, j));
      assert AdvanceAsWritten(l, w, j + 1) == StepAsWritten(l, AdvanceAsWritten(l, w, j));
      BeyondStays(l, w, j + 1, m);
    }
  }

  /** The first k steps of both walks agree when the as-written walk first reaches the end at n >= k. */
  lemma {:induction false} AgreePrefix(l: Line, w: Walker, n: nat, k: nat)
    requires UnitSteps(l) && k <= n
    requires Pos(AdvanceAsWritten(l, w, n)) == EndCell(l)
    requires forall i :: 0 <= i < n ==> Pos(AdvanceAsWritten(l, w, i)) != EndCell(l)
    ensures AdvanceAsWritten(l, w, k) == Advance(l, w, k)
  {
    if k > 0 {
      AgreePrefix(l, w, n, k - 1);
      var v := AdvanceAsWritten(l, w, k - 1);
      if Leaves(l, v) {
        LeavingGoesBeyond(l, v);
        BeyondStays(l, w, k, n);
        assert false;
      }
      StepAgrees(l, v);
    }
  }

  /**
   * Whenever the as-written walk reaches the end cell, it took the corrected walk's steps
   * all the way: the two walks agree up to that point, which is the distance to the end.
   */
  lemma AsWrittenAgrees(l: Line, w: Walker, n: nat)
    requires Aimed(l, w)
    requires Pos(AdvanceAsWritten(l, w, n)) == EndCell(l)
    requires forall i :: 0 <= i < n ==> Pos(AdvanceAsWritten(l, w, i)) != EndCell(l)
    ensures n == Distance(l, Pos(w))
    ensures forall i :: 0 <= i <= n ==> AdvanceAsWritten(l, w, i) == Advance(l, w, i)
  {
    forall i | 0 <= i <= n
      ensures AdvanceAsWritten(l, w, i) == Advance(l, w, i)
    {
      AgreePrefix(l, w, n, i);
    }
    ReachesEnd(l, w);
    var d := Distance(l, Pos(w));
    if d < n {
      assert false;
    }
  }

  /** Agreeing walkers give equal paths. */
  lemma {:induction false} PathsAgree(l: Line, w: Walker, n: nat)
    requires forall i :: 0 <= i <= n ==> AdvanceAsWritten(l, w, i) == Advance(l, w, i)
    ensures PathAsWritten(l, w, n) == Path(l, w, n)
  {
    if n > 0 {
      PathsAgree(l, w, n - 1);
    }
  }

  /**
   * The corrected traversal is the source's on every input where the source's walk reaches
   * the end cell; where it does not, the source returns cap + 1 cells without the end cell.
   */
  lemma TraversalAgrees(x1: int, y1: int, x2: int, y2: int, size: CellSize)
    ensures CellOf(x2, y2, size) in TraversalAsWritten(x1, y1, x2, y2, size) ==>
      TraversalAsWritten(x1, y1, x2, y2, size) == Traversal(x1, y1, x2, y2, size)
  {
    var (l, w) := Setup(x1, y1, x2, y2, size);
    var r := StopAsWritten(l, w, 0);
    SetupAimed(x1, y1, x2, y2, size);
    if CellOf(x2, y2, size) in TraversalAsWritten(x1, y1, x2, y2, size) {
      var p := PathAsWritten(l, w, r);
      PathAsWrittenIndex(l, w, r);
      var i :| 0 <= i < |p| && p[i] == EndCell(l);
      assert Pos(AdvanceAsWritten(l, w, r)) == EndCell(l);
      AsWrittenAgrees(l, w, r);
      PathsAgree(l, w, r);
    }
  }

  /**
   * The as-written step overshoots. For the segment (50, -50)-(100, -100) with cell size 100
   * the start cell is (0, -1) and the end cell (1, -1), one step apart; the end point is a
   * cell corner, so tMaxX == tMaxY == 1 at the first iteration, the tie goes to the y branch
   * and the walk leaves row -1 for (0, -2). y only decreases from there, so the end cell is
   * never reached and the loop runs until the safety cap fires.
   */
  lemma CornerOvershoot()
    ensures var (l, w) := Setup(50, -50, 100, -100, 100);
      && Pos(w) == (0, -1) && EndCell(l) == (1, -1)
      && Pos(AdvanceAsWritten(l, w, 1)) == (0, -2)
      && forall n: nat :: Pos(AdvanceAsWritten(l, w, n)) != EndCell(l)
  {
    var (l, w) := Setup(50, -50, 100, -100, 100);
    assert l.stepY == -1;
    assert w.tMaxX == Finite(1.0) && w.tMaxY == Finite(1.0);
    forall n: nat
      ensures Pos(AdvanceAsWritten(l, w, n)) != EndCell(l)
    {
      if n > 0 {
        AsWrittenBelowRow(l, w, n);
      }
    }
  }

  /**
   * What that costs getLineCells in the example above: as written it returns 10001 cells,
   * none of them the end cell.
   */
  lemma CornerOvershootCells()
    ensures |TraversalAsWritten(50, -50, 100, -100, 100)| == SafetyLimit + 1
    ensures (1, -1) !in TraversalAsWritten(50, -50, 100, -100, 100)
  {
    var lw := Setup(50, -50, 100, -100, 100);
    CornerOvershoot();
    NeverAtEnd(lw.0, lw.1);
  }

  /**
   * The source's result in the example above also leaves the segment's bounding box:
   * it holds (0, -2), a cell outside the box of the two endpoints' cells.
   */
  lemma CornerLeavesBox()
    ensures (0, -2) in TraversalAsWritten(50, -50, 100, -100, 100)
    ensures (0, -2) !in SpanCells(BoundingSpan(50, -50, 100, -100, 100))
  {
    var lw := Setup(50, -50, 100, -100, 100);
    CornerOvershoot();
    NeverAtEnd(lw.0, lw.1);
    PathAsWrittenIndex(lw.0, lw.1, SafetyLimit);
    assert PathAsWritten(lw.0, lw.1, SafetyLimit)[1] == (0, -2);
    BoundingSpanIsHull(50, -50, 100, -100, 100);
  }

  /** A walk that never reaches the end cell runs to the cap and never holds the end cell. */
  lemma NeverAtEnd(l: Line, w: Walker)
    requires UnitSteps(l)
    requires forall n: nat :: Pos(AdvanceAsWritten(l, w, n)) != EndCell(l)
    ensures StopAsWritten(l, w, 0) == SafetyLimit
    ensures |Elems(PathAsWritten(l, w, SafetyLimit))| == SafetyLimit + 1
    ensures EndCell(l) !in Elems(PathAsWritten(l, w, SafetyLimit))
  {
    var r := StopAsWritten(l, w, 0);
    assert Pos(AdvanceAsWritten(l, w, r)) != EndCell(l);
    AsWrittenPathShape(l, w, SafetyLimit);
    PathAsWrittenIndex(l, w, SafetyLimit);
    var p := PathAsWritten(l, w, SafetyLimit);
    forall c | c in p
      ensures c != EndCell(l)
    {
      var i :| 0 <= i < |p| && p[i] == c;
      assert c == Pos(AdvanceAsWritten(l, w, i));
    }
  }

  /** The corrected walk in the example above: the two cells of the segment. */
  lemma CornerCells()
    ensures Traversal(50, -50, 100, -100, 100) == {(0, -1), (1, -1)}
  {
    TraversalFacts(50, -50, 100, -100, 100);
    assert CellOf(50, -50, 100) == (0, -1) && CellOf(100, -100, 100) == (1, -1);
    TwoCells(Traversal(50, -50, 100, -100, 100), (0, -1), (1, -1));
  }

  /** A set of two cells holding two distinct cells holds exactly those. */
  lemma TwoCells(t: set<Cell>, a: Cell, b: Cell)
    requires a != b && a in t && b in t && |t| == 2
    ensures t == {a, b}
  {
    var rest := t - {a, b};
    assert t == {a, b} + rest && {a, b} * rest == {};
    assert |rest| == 0;
  }

  /** The point of the segment (x1, y1)-(x2, y2) at parameter t, 0 <= t <= 1. */
  function SegmentPoint(x1: int, y1: int, x2: int, y2: int, t: real): (real, real)
  {
    (x1 as real + t * (x2 - x1) as real, y1 as real + t * (y2 - y1) as real)
  }

  /** The point p lies in cell c, a half-open square of side size. */
  predicate InCell(p: (real, real), c: Cell, size: CellSize)
  {
    && (c.0 * size) as real <= p.0 < ((c.0 + 1) * size) as real
    && (c.1 * size) as real <= p.1 < ((c.1 + 1) * size) as real
  }

  /**
   * The traversal is a covering, not the exact set of cells the segment meets: a segment
   * through a cell corner also collects one of the two cells that only touch it there.
   * The diagonal (50, 50)-(150, 150) passes through the corner (100, 100); both walks
   * take cell (0, 1) on the way from (0, 0) to (1, 1), yet no point of the segment lies in it.
   */
  lemma CornerTouch()
    ensures (0, 1) in Traversal(50, 50, 150, 150, 100)
    ensures (0, 1) in TraversalAsWritten(50, 50, 150, 150, 100)
    ensures forall t: real :: 0.0 <= t <= 1.0 ==> !InCell(SegmentPoint(50, 50, 150, 150, t), (0, 1), 100)
  {
    var (l, w) := Setup(50, 50, 150, 150, 100);
    assert w.tMaxX == Finite(0.5) && w.tMaxY == Finite(0.5);
    assert EndCell(l) == (1, 1) && Pos(w) == (0, 0);
    assert l.tDeltaX == Finite(1.0) && l.tDeltaY == Finite(1.0);
    var w1 := Walker(0, 1, Finite(0.5), Finite(1.5));
    assert Advance(l, w, 1) == w1 && AdvanceAsWritten(l, w, 1) == w1;
    assert AdvanceAsWritten(l, w, 2) == StepAsWritten(l, w1) == StepX(l, w1);
    assert StepsFrom(l, w) == 2;
    PathIndex(l, w, 2);
    var r := StopAsWritten(l, w, 0);
    assert r == 2;
    PathAsWrittenIndex(l, w, 2);
    assert PathAsWritten(l, w, 2)[1] == (0, 1);
  }

  /** In the example above, once the first step is taken every later cell lies at or below row -2. */
  lemma {:induction false} AsWrittenBelowRow(l: Line, w: Walker, n: nat)
    requires (l, w) == Setup(50, -50, 100, -100, 100)
    requires n >= 1
    ensures AdvanceAsWritten(l, w, n).cy <= -2
  {
    if n > 1 {
      AsWrittenBelowRow(l, w, n - 1);
    } else {
      assert w.tMaxX == Finite(1.0) && w.tMaxY == Finite(1.0);
    }
  }
}

=== FILE: grid_spec.dfy ===
/**
 * The abstract state of a spatial hash grid, a map from cells to sets of entity ids,
 * and the value-level effect of each of its operations. The class in
 * spatial_hash_grid.dfy is proved to change its map exactly as these functions say.
 */
module GridSpec {
  import opened Cells

  /** The grid's `cells` map. */
  type Index = map<Cell, set<string>>

  /** The ids stored in cell c; a cell without an entry holds none. */
  function IdsAt(m: Index, c: Cell): set<string>
  {
    if c in m then m[c] else {}
  }

  /** Add id to every cell of cs, creating the entries that are missing. */
  function Insert(m: Index, cs: set<Cell>, id: string): Index
  {
    map c | c in m.Keys + cs :: IdsAt(m, c) + (if c in cs then {id} else {})
  }

  /** Add id to the single cell c (the `if (!has) set(new Set); get(key).add(id)` idiom). */
  function AddToCell(m: Index, c: Cell, id: string): Index
  {
    m[c := IdsAt(m, c) + {id}]
  }

  lemma InsertNone(m: Index, id: string)
    ensures Insert(m, {}, id) == m
  {
    var r := Insert(m, {}, id);
    assert r.Keys == m.Keys;
    forall c | c in m
      ensures r[c] == m[c]
    {
    }
  }

  /** Inserting into one more cell is one more single-cell addition. */
  lemma InsertOneMore(m: Index, cs: set<Cell>, c: Cell, id: string)
    ensures Insert(m, cs + {c}, id) == AddToCell(Insert(m, cs, id), c, id)
  {
    var before := Insert(m, cs, id);
    var a, b := Insert(m, cs + {c}, id), AddToCell(before, c, id);
    assert a.Keys == b.Keys;
    forall d | d in a.Keys
      ensures a[d] == b[d]
    {
      if d == c {
        assert IdsAt(before, c) == IdsAt(m, c) + (if c in cs then {id} else {});
      } else {
        assert b[d] == before[d];
      }
    }
  }

  lemma InsertSingle(m: Index, c: Cell, id: string)
    ensures Insert(m, {c}, id) == AddToCell(m, c, id)
  {
    InsertNone(m, id);
    InsertOneMore(m, {}, c, id);
    assert {} + {c} == {c};
  }

  /** Delete id from cell c, dropping the entry if that leaves it empty; an absent cell is left alone. */
  function Erase(m: Index, c: Cell, id: string): Index
  {
    if c !in m then m
    else if m[c] - {id} == {} then m - {c}
    else m[c := m[c] - {id}]
  }

  /** Delete id from every cell, keeping every entry, empty or not. */
  function Strip(m: Index, id: string): Index
  {
    map c | c in m :: m[c] - {id}
  }

  /** Move id from cell `from` to cell `to`; nothing happens when they are the same cell. */
  function Relocate(m: Index, id: string, from: Cell, to: Cell): Index
  {
    if from == to then m else Insert(Erase(m, from, id), {to}, id)
  }

  /** The union of the id sets of the cells of cs. */
  function IdsIn(m: Index, cs: set<Cell>): set<string>
  {
    set c, i | c in m && c in cs && i in m[c] :: i
  }

  /** Total number of (cell, id) associations of the cells in ks. */
  ghost function SumSizes(m: Index, ks: set<Cell>): nat
    requires ks <= m.Keys
  {
    if ks == {} then 0
    else
      var k :| k in ks;
      |m[k]| + SumSizes(m, ks - {k})
  }

  /** SumSizes does not depend on the order in which cells are taken out. */
  lemma {:induction false} SumSizesTake(m: Index, ks: set<Cell>, k: Cell)
    requires ks <= m.Keys && k in ks
    ensures SumSizes(m, ks) == |m[k]| + SumSizes(m, ks - {k})
  {
    var j :| j in ks && SumSizes(m, ks) == |m[j]| + SumSizes(m, ks - {j});
    if j != k {
      SumSizesTake(m, ks - {j}, k);
      SumSizesTake(m, ks - {k}, j);
      assert ks - {j} - {k} == ks - {k} - {j};
    }
  }

  /** Adding to cells: id ends up in every cell of cs, no other id appears, and cells outside cs keep their entry. */
  lemma InsertEffect(m: Index, cs: set<Cell>, id: string)
    ensures forall c :: c in cs ==> c in Insert(m, cs, id) && id in Insert(m, cs, id)[c]
    ensures forall c, i :: i != id ==> (i in IdsAt(Insert(m, cs, id), c) <==> i in IdsAt(m, c))
    ensures forall c :: c !in cs ==> (c in Insert(m, cs, id) <==> c in m) && IdsAt(Insert(m, cs, id), c) == IdsAt(m, c)
  {
  }

  /** After removal from every cell no cell holds id, the keys are the same and other ids stay where they were. */
  lemma StripEffect(m: Index, id: string)
    ensures Strip(m, id).Keys == m.Keys
    ensures forall c :: id !in IdsAt(Strip(m, id), c)
    ensures forall c, i :: i != id ==> (i in IdsAt(Strip(m, id), c) <==> i in IdsAt(m, c))
  {
  }

  /**
   * Removing from one cell: id leaves that cell, the key goes when the cell empties,
   * every other cell is untouched, and an absent cell means no change.
   */
  lemma EraseEffect(m: Index, c: Cell, id: string)
    ensures id !in IdsAt(Erase(m, c, id), c)
    ensures c in Erase(m, c, id) <==> c in m && m[c] - {id} != {}
    ensures forall i :: i != id ==> (i in IdsAt(Erase(m, c, id), c) <==> i in IdsAt(m, c))
    ensures forall d :: d != c ==> (d in Erase(m, c, id) <==> d in m) && IdsAt(Erase(m, c, id), d) == IdsAt(m, d)
    ensures c !in m ==> Erase(m, c, id) == m
  {
  }

  /**
   * Relocation between different cells: id is in the new cell and not in the old one,
   * the old key goes when the old cell empties, and every other cell is untouched.
   */
  lemma RelocateEffect(m: Index, id: string, from: Cell, to: Cell)
    requires from != to
    ensures to in Relocate(m, id, from, to) && id in Relocate(m, id, from, to)[to]
    ensures id !in IdsAt(Relocate(m, id, from, to), from)
    ensures from in Relocate(m, id, from, to) <==> from in m && m[from] - {id} != {}
    ensures forall d :: d != from && d != to ==>
      (d in Relocate(m, id, from, to) <==> d in m) && IdsAt(Relocate(m, id, from, to), d) == IdsAt(m, d)
  {
    EraseEffect(m, from, id);
  }

  /** An id lies in the union over cs exactly when some cell of cs holds it. */
  lemma IdsInMembers(m: Index, cs: set<Cell>, i: string)
    ensures i in IdsIn(m, cs) <==> exists c :: c in cs && i in IdsAt(m, c)
  {
    if exists c :: c in cs && i in IdsAt(m, c) {
      var c :| c in cs && i in IdsAt(m, c);
      assert c in m && i in m[c];
    }
  }

  /** Growing the set of cells by one cell adds that cell's ids to the union. */
  lemma IdsInOneMore(m: Index, cs: set<Cell>, k: Cell)
    ensures IdsIn(m, cs + {k}) == IdsIn(m, cs) + IdsAt(m, k)
  {
    forall i | i in IdsAt(m, k)
      ensures i in IdsIn(m, cs + {k})
    {
      assert k in m && i in m[k];
    }
  }

  /**
   * A point entity added at (x, y) is found by a range query over any rectangle holding
   * (x, y) and by the point query at (x, y).
   */
  lemma AddedNodeIsFound(m: Index, id: string, x: int, y: int, size: CellSize,
                         qx: int, qy: int, w: int, h: int)
    requires qx <= x <= qx + w && qy <= y <= qy + h
    ensures id in IdsAt(Insert(m, {CellOf(x, y, size)}, id), CellOf(x, y, size))
    ensures id in IdsIn(Insert(m, {CellOf(x, y, size)}, id), SpanCells(RectSpan(qx, qy, w, h, size)))
  {
    var c := CellOf(x, y, size);
    RectCoversPoints(qx, qy, w, h, size, x, y);
    IdsInMembers(Insert(m, {c}, id), SpanCells(RectSpan(qx, qy, w, h, size)), id);
  }

  /**
   * A point entity held by no cell, added at (x, y) and then removed from the cell of (x, y),
   * is found neither by the point query nor by any range query.
   */
  lemma AddedThenRemovedIsGone(m: Index, id: string, x: int, y: int, size: CellSize, cs: set<Cell>)
    requires forall c :: id !in IdsAt(m, c)
    ensures var after := Erase(Insert(m, {CellOf(x, y, size)}, id), CellOf(x, y, size), id);
      id !in IdsAt(after, CellOf(x, y, size)) && id !in IdsIn(after, cs)
  {
    var k := CellOf(x, y, size);
    var after := Erase(Insert(m, {k}, id), k, id);
    EraseEffect(Insert(m, {k}, id), k, id);
    forall c
      ensures id !in IdsAt(after, c)
    {
      if c != k {
        assert IdsAt(after, c) == IdsAt(m, c);
      }
    }
    IdsInMembers(after, cs, id);
  }
}

=== FILE: spatial_hash_grid.dfy ===
/**
 * The spatial hash grid: a uniform grid of square cells, each holding the set of ids
 * of the entities whose geometry was indexed into it. Points go into one cell, edges
 * into the cells of their grid traversal or of their bounding box.
 */
module SpatialHash {
  import opened Cells
  import opened GridSpec
  import Dda

  /** Diagnostics of getStats. */
  datatype Stats = Stats(
    cellCount: nat,
    totalObjects: nat,
    maxObjectsPerCell: nat,
    avgObjectsPerCell: real,
    cellSize: int)

  class SpatialHashGrid {
    const cellSize: CellSize
    var cells: Index

    constructor (cellSize: CellSize)
      ensures this.cellSize == cellSize && cells == map[]
    {
      this.cellSize := cellSize;
      cells := map[];
    }

    /** The cell of the point (x, y) (getCellKey). */
    function CellKey(x: int, y: int): Cell
    {
      CellOf(x, y, cellSize)
    }

    /** Add id to the set of cell key, creating the set when the cell has none. */
    method Put(key: Cell, id: string)
      modifies this
      ensures cells == AddToCell(old(cells), key, id)
    {
      if key !in cells {
        cells := cells[key := {}];
      }
      cells := cells[key := cells[key] + {id}];
    }

    /** Index a point entity in the cell containing (x, y). */
    method AddNode(id: string, x: int, y: int)
      modifies this
      ensures cells == Insert(old(cells), {CellKey(x, y)}, id)
      ensures id in cells[CellKey(x, y)]
      ensures forall c :: c != CellKey(x, y) ==> (c in cells <==> c in old(cells)) && IdsAt(cells, c) == IdsAt(old(cells), c)
    {
      var key := CellKey(x, y);
      Put(key, id);
      InsertSingle(old(cells), key, id);
    }

    /**
     * Index an edge: into the cells of its grid traversal when precise, into every cell
     * of its bounding box otherwise.
     */
    method AddEdge(id: string, x1: int, y1: int, x2: int, y2: int, precise: bool)
      modifies this
      ensures precise ==> cells == Insert(old(cells), Dda.Traversal(x1, y1, x2, y2, cellSize), id)
      ensures !precise ==> cells == Insert(old(cells), SpanCells(BoundingSpan(x1, y1, x2, y2, cellSize)), id)
      ensures precise && CellOf(x2, y2, cellSize) in Dda.TraversalAsWritten(x1, y1, x2, y2, cellSize) ==>
        cells == Insert(old(cells), Dda.TraversalAsWritten(x1, y1, x2, y2, cellSize), id)
    {
      Dda.TraversalAgrees(x1, y1, x2, y2, cellSize);
      if !precise {
        AddEdgeAABB(id, x1, y1, x2, y2);
        return;
      }
      var lineCells := LineCells(x1, y1, x2, y2);
      var todo := lineCells;
      ghost var done: set<Cell> := {};
      InsertNone(old(cells), id);
      while todo != {}
        invariant done + todo == lineCells
        invariant cells == Insert(old(cells), done, id)
        decreases todo
      {
        var key :| key in todo;
        Put(key, id);
        InsertOneMore(old(cells), done, key, id);
        done := done + {key};
        todo := todo - {key};
      }
    }

    /** Index an edge into every cell of the bounding box of its endpoints. */
    method AddEdgeAABB(id: string, x1: int, y1: int, x2: int, y2: int)
      modifies this
      ensures cells == Insert(old(cells), SpanCells(BoundingSpan(x1, y1, x2, y2, cellSize)), id)
    {
      var box := BoundingSpan(x1, y1, x2, y2, cellSize);
      var startX, endX := box.lo.0, box.hi.0;
      var startY, endY := box.lo.1, box.hi.1;
      VisitedNone(box);
      InsertNone(old(cells), id);
      var ix := startX;
      while ix <= endX
        invariant ix >= startX
        invariant cells == Insert(old(cells), Visited(box, ix, startY), id)
      {
        AddColumn(id, box, ix, old(cells));
        ix := ix + 1;
      }
      VisitedAll(box, ix);
    }

    /** The inner loop of addEdgeAABB: add id to the cells of column ix of the box, bottom to top. */
    method AddColumn(id: string, box: Span, ix: int, ghost base: Index)
      requires box.lo.0 <= ix <= box.hi.0
      requires cells == Insert(base, Visited(box, ix, box.lo.1), id)
      modifies this
      ensures cells == Insert(base, Visited(box, ix + 1, box.lo.1), id)
    {
      var iy := box.lo.1;
      while iy <= box.hi.1
        invariant iy >= box.lo.1
        invariant cells == Insert(base, Visited(box, ix, iy), id)
      {
        var key := (ix, iy);
        Put(key, id);
        VisitedNext(box, ix, iy);
        InsertOneMore(base, Visited(box, ix, iy), key, id);
        iy := iy + 1;
      }
      VisitedColumnDone(box, ix, iy);
    }

    /**
     * The cells of the grid traversal of the segment (x1, y1)-(x2, y2) (getLineCells, with
     * the corrected step of Dda.Step): the cells of the walk's first Dda.StepsFrom steps.
     * What that set holds is stated by Dda.TraversalFacts.
     */
    method LineCells(x1: int, y1: int, x2: int, y2: int) returns (lineCells: set<Cell>)
      ensures lineCells == Dda.Traversal(x1, y1, x2, y2, cellSize)
    {
      var cx := FloorDiv(x1, cellSize);
      var cy := FloorDiv(y1, cellSize);
      var endCx := FloorDiv(x2, cellSize);
      var endCy := FloorDiv(y2, cellSize);

      lineCells := {(cx, cy)};

      if cx == endCx && cy == endCy {
        Dda.TraversalOneCell(x1, y1, x2, y2, cellSize);
        return;
      }

      var (line, start) := Dda.Setup(x1, y1, x2, y2, cellSize);
      Dda.SetupAimed(x1, y1, x2, y2, cellSize);
      lineCells := Walk(line, start);
    }

    /**
     * The stepping loop of getLineCells from the walker `start`: collect each cell entered
     * until the end cell is reached or more than SafetyLimit cells have been collected.
     */
    static method Walk(line: Dda.Line, start: Dda.Walker) returns (lineCells: set<Cell>)
      requires Dda.Aimed(line, start)
      ensures lineCells == Dda.Elems(Dda.Path(line, start, Dda.StepsFrom(line, start)))
    {
      var cx, cy, tMaxX, tMaxY := start.cx, start.cy, start.tMaxX, start.tMaxY;
      var stepX, stepY, tDeltaX, tDeltaY := line.stepX, line.stepY, line.tDeltaX, line.tDeltaY;
      var endCx, endCy := line.endCx, line.endCy;
      lineCells := {(cx, cy)};
      ghost var steps: nat := 0;

      // The source breaks at the end of an iteration once the set has grown past the cap;
      // testing the cap in the guard instead exits at the same point.
      while (cx != endCx || cy != endCy) && |lineCells| <= Dda.SafetyLimit
        invariant Dda.Walker(cx, cy, tMaxX, tMaxY) == Dda.Advance(line, start, steps)
        invariant steps <= Dda.SafetyLimit && steps <= Dda.Distance(line, Dda.Pos(start))
        invariant Dda.Distance(line, (cx, cy)) == Dda.Distance(line, Dda.Pos(start)) - steps
        invariant lineCells == Dda.Elems(Dda.Path(line, start, steps))
        invariant |lineCells| == steps + 1
        decreases Dda.Distance(line, (cx, cy))
      {
        ghost var w := Dda.Walker(cx, cy, tMaxX, tMaxY);
        Dda.WalkStep(line, start, steps);
        if cx != endCx && (cy == endCy || Dda.Less(tMaxX, tMaxY)) {
          tMaxX := Dda.Plus(tMaxX, tDeltaX);
          cx := cx + stepX;
        } else {
          tMaxY := Dda.Plus(tMaxY, tDeltaY);
          cy := cy + stepY;
        }
        assert Dda.Walker(cx, cy, tMaxX, tMaxY) == Dda.Step(line, w);
        lineCells := lineCells + {(cx, cy)};
        steps := steps + 1;
      }
      Dda.DistanceZero(line, (cx, cy));
    }

    /** Remove id from every cell; emptied cells keep their entry. */
    method Remove(id: string)
      modifies this
      ensures cells == Strip(old(cells), id)
      ensures cells.Keys == old(cells).Keys
      ensures forall c :: id !in IdsAt(cells, c)
    {
      var todo := cells.Keys;
      while todo != {}
        invariant todo <= cells.Keys
        invariant cells.Keys == old(cells).Keys
        invariant forall c :: c in cells ==> cells[c] == if c in todo then old(cells)[c] else old(cells)[c] - {id}
        decreases todo
      {
        var key :| key in todo;
        cells := cells[key := cells[key] - {id}];
        todo := todo - {key};
      }
      StripEffect(old(cells), id);
    }

    /** Remove id from the cell containing (x, y) only, dropping that cell's entry if it empties. */
    method RemoveFromCell(id: string, x: int, y: int)
      modifies this
      ensures cells == Erase(old(cells), CellKey(x, y), id)
      ensures id !in IdsAt(cells, CellKey(x, y))
      ensures CellKey(x, y) !in old(cells) ==> cells == old(cells)
    {
      var key := CellKey(x, y);
      if key in cells {
        var cell := cells[key] - {id};
        cells := cells[key := cell];
        if cell == {} {
          cells := cells - {key};
        }
      }
    }

    /**
     * Move a point entity from the cell of (oldX, oldY) to the cell of (newX, newY); when both
     * points share a cell nothing changes.
     */
    method UpdateNode(id: string, oldX: int, oldY: int, newX: int, newY: int)
      modifies this
      ensures cells == Relocate(old(cells), id, CellKey(oldX, oldY), CellKey(newX, newY))
      ensures CellKey(oldX, oldY) == CellKey(newX, newY) ==> cells == old(cells)
      ensures CellKey(oldX, oldY) != CellKey(newX, newY) ==>
        id in cells[CellKey(newX, newY)] && id !in IdsAt(cells, CellKey(oldX, oldY))
    {
      var oldKey := CellKey(oldX, oldY);
      var newKey := CellKey(newX, newY);

      if oldKey == newKey {
        return;
      }

      if oldKey in cells {
        var oldCell := cells[oldKey] - {id};
        cells := cells[oldKey := oldCell];
        if oldCell == {} {
          cells := cells - {oldKey};
        }
      }
      assert cells == Erase(old(cells), oldKey, id);

      ghost var erased := cells;
      Put(newKey, id);
      InsertSingle(erased, newKey, id);
    }

    /** Drop every cell; the cell size stays. */
    method Clear()
      modifies this
      ensures cells == map[]
    {
      cells := map[];
    }

    /**
     * Diagnostics: the number of cells, the number of (cell, id) associations, the largest
     * cell (at least the size of every cell, and the size of one of them when there are
     * cells), and the mean cell size. Reads the grid and changes nothing.
     */
    method GetStats() returns (stats: Stats)
      ensures stats.cellCount == |cells|
      ensures stats.totalObjects == SumSizes(cells, cells.Keys)
      ensures forall c :: c in cells ==> |cells[c]| <= stats.maxObjectsPerCell
      ensures cells != map[] ==> exists c :: c in cells && |cells[c]| == stats.maxObjectsPerCell
      ensures cells == map[] ==> stats.maxObjectsPerCell == 0
      ensures stats.avgObjectsPerCell ==
        if |cells| > 0 then stats.totalObjects as real / |cells| as real else 0.0
      ensures stats.cellSize == cellSize
    {
      var totalObjects, maxObjectsPerCell, largest := Tally();
      var avgObjectsPerCell := if |cells| > 0 then totalObjects as real / |cells| as real else 0.0;
      stats := Stats(|cells|, totalObjects, maxObjectsPerCell, avgObjectsPerCell, cellSize);
    }

    /**
     * The loop of getStats: the total number of (cell, id) associations and the size of
     * the largest cell, with a ghost witness of the largest cell.
     */
    method Tally() returns (totalObjects: nat, maxObjectsPerCell: nat, ghost largest: Cell)
      ensures totalObjects == SumSizes(cells, cells.Keys)
      ensures forall c :: c in cells ==> |cells[c]| <= maxObjectsPerCell
      ensures cells != map[] ==> largest in cells && |cells[largest]| == maxObjectsPerCell
      ensures cells == map[] ==> maxObjectsPerCell == 0
    {
      totalObjects, maxObjectsPerCell, largest := 0, 0, (0, 0);
      var todo := cells.Keys;
      ghost var done: set<Cell> := {};
      while todo != {}
        invariant done + todo == cells.Keys && done !! todo
        invariant totalObjects == SumSizes(cells, done)
        invariant forall c :: c in done ==> |cells[c]| <= maxObjectsPerCell
        invariant done != {} ==> largest in done && |cells[largest]| == maxObjectsPerCell
        invariant done == {} ==> maxObjectsPerCell == 0
        decreases todo
      {
        var key :| key in todo;
        var size := |cells[key]|;
        SumSizesTake(cells, done + {key}, key);
        assert done + {key} - {key} == done;
        totalObjects := totalObjects + size;
        if size > maxObjectsPerCell {
          maxObjectsPerCell := size;
        }
        if size == maxObjectsPerCell {
          largest := key;
        }
        done := done + {key};
        todo := todo - {key};
      }
    }

    /**
     * The ids of every cell overlapping [x, x + width] x [y, y + height]; an id is returned
     * exactly when some such cell holds it. Reads the grid and changes nothing.
     */
    method QueryRange(x: int, y: int, width: int, height: int) returns (found: set<string>)
      ensures found == IdsIn(cells, SpanCells(RectSpan(x, y, width, height, cellSize)))
      ensures forall i :: i in found <==>
        exists c :: InSpan(c, RectSpan(x, y, width, height, cellSize)) && i in IdsAt(cells, c)
    {
      found := {};
      var range := RectSpan(x, y, width, height, cellSize);
      var startX, endX := range.lo.0, range.hi.0;
      var startY, endY := range.lo.1, range.hi.1;
      VisitedNone(range);
      var ix := startX;
      while ix <= endX
        invariant ix >= startX
        invariant found == IdsIn(cells, Visited(range, ix, startY))
      {
        var iy := startY;
        while iy <= endY
          invariant iy >= startY
          invariant found == IdsIn(cells, Visited(range, ix, iy))
        {
          var key := (ix, iy);
          if key in cells {
            found := found + cells[key];
          }
          VisitedNext(range, ix, iy);
          IdsInOneMore(cells, Visited(range, ix, iy), key);
          iy := iy + 1;
        }
        VisitedColumnDone(range, ix, iy);
        ix := ix + 1;
      }
      VisitedAll(range, ix);
      forall i
        ensures i in found <==> exists c :: InSpan(c, range) && i in IdsAt(cells, c)
      {
        IdsInMembers(cells, SpanCells(range), i);
      }
    }

    /** The ids of the cell containing (x, y), or none when the cell has no entry. */
    method QueryPoint(x: int, y: int) returns (found: set<string>)
      ensures found == IdsAt(cells, CellKey(x, y))
      ensures found == IdsIn(cells, SpanCells(RectSpan(x, y, 0, 0, cellSize)))
    {
      var key := CellKey(x, y);
      found := if key in cells then cells[key] else {};
      assert SpanCells(RectSpan(x, y, 0, 0, cellSize)) == {key};
      IdsInOneMore(cells, {}, key);
      assert {} + {key} == {key};
    }
  }
}
